=== FILE: README.md ===
# Universo AL: the simulation core in Dafny

This project models the real-time simulation of the browser arcade shooter
`game.js` and proves properties of it. The player runs along the ground
line, jumps, and shoots upwards at falling enemy ships. Two companions, a cat
and a dog, follow the player and fire aimed shots at the topmost ship. A
ship that reaches the player or a companion costs the player health. The run
stops when health reaches zero.

Each frame of the game's `loop` runs seven updates in a fixed order:

1. the difficulty director (`updateDifficulty`), which spawns ships;
2. the player (`updatePlayer`);
3. the companions (`updateAnimals`);
4. the projectile store (`updateProjectiles`);
5. the enemy store (`updateEnemies`);
6. the effect store (`updateExplosions`);
7. the collision resolver (`checkCollisions`).

Between frames, the keyboard handlers maintain the `keys` record. A double
tap of Shift toggles companion auto-fire. S switches between the two
characters.

The model has the source's two flavours:

- **Pure functions with lemmas.** The collision predicates, every entity
  rule, every per-frame update and both collision passes are pure functions
  over values. Lemmas about them state what the game promises. They live in
  the modules `Geometry`, `Entities`, `Stores`, `Director`, `Ledger`,
  `Collisions`, `Companions`, `Input` and `PlayerPhysics`.
- **Imperative state.** The game's globals become the fields of
  `class Game`, and the `player` object becomes `class Player`; both live in
  module `Game`. Each handler and update of the game is a method that changes
  those fields in place. A loop that scans a store from its last index down
  and splices stays a loop, proved against the pure function that specifies
  it.
  - The `projectiles`, `enemies`, `explosions` and `animals` arrays are
    sequence fields. A splice becomes the concatenation of the slices on
    either side of the removed index.

`Game.Valid` is the invariant that the constructor, every key handler and
every frame keep:

- health is in `[0, maxLives]`, and a run with no health is stopped;
- `0 <= score <= bestScore`;
- the spawn interval is in `[1.2, 2.8]`, the spawn timer is at most the
  interval, and the difficulty level is in `[0, 8]`;
- the two companions are in place, in order, with non-negative cooldowns;
- the player is inside the horizontal clamp range and not below the ground,
  stands still vertically when grounded, is no faster than the fastest
  character, and has a non-negative fire cooldown;
- every effect has started.

Outside input comes in as parameters:

- every `Math.random()` draw (a real in `[0, 1)`);
- `Math.sin` and `Math.hypot` (arbitrary functions);
- `performance.now()`;
- the size of the canvas.

A few facts about the code shape the model:

- **Companion smoothing** is the clamped linear factor `min(1, 6·delta)`
  (game.js:586), whatever the frame rate.
- **No enemies, no companion shot.** `shootAnimalProjectile` returns before
  aiming when the enemy store is empty (game.js:497), so a companion with no
  ship to aim at never fires.
- **The delta of a frame is used as given.** `loop` only maps NaN to 0
  (game.js:1022); a negative delta would run the updates backwards. `Step`,
  its phase methods and the director, player and companion updates require
  `delta >= 0`; the three store updates (`UpdateProjectiles`,
  `UpdateEnemies`, `UpdateExplosions`) accept any delta.
- **The player fires before its cooldown counts down** (game.js:577-581), so
  the cooldown left after a shot is the character's `fireCooldown - delta`.
- **The wall bounce never steers a ship.** `updateEnemies` negates a ship's
  stored sideways speed near a wall (game.js:633-635), but a zigzag ship's
  speed is recomputed from its timer before every move (game.js:627), and a
  straight ship is spawned with sideways speed 0 (game.js:465). A zigzag ship
  can therefore keep moving past a wall, and a straight one never moves
  sideways.
- **Collision outcomes depend on the order of the stores.** Both passes
  scan from the highest index down, and a projectile strikes the
  highest-index ship it overlaps (game.js:711-734). The model reproduces
  this order and claims no independence from it.

## Model

| member | source | states |
|---|---|---|
| Geometry.RectsIntersectIff | game.js:684-689 | For rectangles of positive size, the strict overlap test holds iff the two open interiors share a point; rectangles that only touch along an edge do not intersect |
| Geometry.ClampIsClosest | game.js:692-693 | Clamping a coordinate into an interval gives a point of the interval at least as close as any other point of it |
| Geometry.CircleRectCollisionIff | game.js:691-697 | The closest-point test is exact: a circle collides with a rectangle iff some point of the closed rectangle lies strictly inside the circle |
| Entities.Profile | game.js:96-120 | Both character profiles have positive speed (at most 320), cooldown, projectile speed and size, an upward jump, and damage taken in (0, 1] |
| Entities.Switched | game.js:435 | A switch always changes the character |
| Entities.SwitchedTwice | game.js:435 | Two switches restore the original character |
| Entities.SpawnEnemy | game.js:456-472 | A new ship appears 100 above the top edge, with its left edge in [40, width - 40] (so, being 70 wide, it may start up to 30 beyond the right wall), 70 by 90 with 2 health; it falls at exactly 70 + 15·level (so at 70 or faster); it zigzags iff the kind draw is at least 0.5, zigzagging ships store a sideways speed of ±80 (their first move replaces it by the steered speed), straight ones a sideways speed of 0 |
| Entities.SpawnSpeedGrows | game.js:458 | Ships spawned at a higher difficulty level fall at least as fast as those spawned at a lower one, whatever the random draws |
| Entities.Explosion | game.js:644-655 | An explosion starts at the given centre in colour #ffdd66 with radius 0, maximum radius 120, alpha 0.8, life 0 and duration 0.45 |
| Entities.HitSpark | game.js:657-668 | A spark starts at the given centre in the given colour with radius 0, maximum radius 60, alpha 0.6, life 0 and duration 0.25 |
| Entities.SwitchFlash | game.js:442-453 | A switch flash starts at the given centre in the character's colour with radius 10, maximum radius 100, alpha 0.6, life 0 and duration 0.25 |
| Entities.AnimalBoxes | game.js:753-758 | Companion hitboxes correspond one to one, in order, to the companions' positions and sizes |
| Stores.AdvanceProjectilesFilters | game.js:603-619 | updateProjectiles drops exactly the moved projectiles beyond the 40-unit margin: every survivor is a moved projectile of the old store and in bounds, and every moved projectile in bounds survives |
| Stores.AdvanceProjectilesConcat | game.js:603-619 | The update distributes over concatenation, so survivors keep their relative order |
| Stores.ProjectileMarginIsInclusive | game.js:610-614 | On each of the four sides the comparisons are strict: a projectile whose edge lies exactly on the 40-unit margin is kept, and moved any distance further out it is dropped |
| Stores.MoveEnemy | game.js:624-636 | A ship keeps its size, kind and health and falls by vy·delta; a zigzag ship advances its timer by 3·delta and takes 140·sin(timer) as its sideways speed, a straight one keeps its own; it moves sideways by that speed, and the speed it stores is that speed negated iff the moved ship is less than 10 from either wall; its hit flash becomes exactly max(0, hitFlash - delta) |
| Stores.WallBounceTurnsBack | game.js:633-635 | The stored sideways speed of a ship past the left wall that was moving left points right, that of one past the right wall that was moving right points left, and one between the walls stores its steered speed |
| Stores.StoredVxIsOverwritten | game.js:625-629 | A zigzag ship's move does not depend on its stored sideways speed, so the speed the wall test flipped never steers it |
| Stores.ZigzagCrossesLeftWall | game.js:625-635 | A concrete zigzag ship beyond the left wall stores a rightward speed and still moves further left in the next frame |
| Stores.StraightShipStaysPut | game.js:629-635 | A straight ship with sideways speed 0 (every straight ship spawnEnemy makes) keeps its x and a sideways speed of 0, walls or not |
| Stores.AdvanceEnemiesFilters | game.js:622-641 | updateEnemies drops exactly the moved ships more than 120 below the field, and keeps every other moved ship |
| Stores.AdvanceEnemiesConcat | game.js:622-641 | Surviving ships keep their relative order |
| Stores.AdvanceEffect | game.js:672-676 | An effect's life advances by delta, its position, colour and durations stay, and with progress = life / duration its alpha is exactly max(0, 0.8 - progress) and its radius maxRadius·progress |
| Stores.EffectFades | game.js:673-676 | The longer an effect is advanced, the lower or equal its alpha, and (for a non-negative maximum radius) the larger or equal its radius |
| Stores.AdvanceEffectsFilters | game.js:670-681 | updateExplosions drops exactly the advanced effects whose life has reached their duration |
| Stores.AdvanceEffectsConcat | game.js:670-681 | Surviving effects keep their relative order |
| Stores.AdvanceEffectBounds | game.js:672-676 | With delta >= 0 a started effect stays started, its alpha stays at most 0.8, and until it expires its radius stays at most its maximum |
| Stores.AdvanceEffectsBounds | game.js:670-681 | Over a whole store, with delta >= 0: every survivor has started, has alpha at most 0.8 and radius at most its maximum |
| Director.DirectorTick | game.js:777-785 | One enemy spawns exactly when the timer runs out (timer - delta <= 0), and then the timer restarts at the new interval; otherwise the timer counts down by delta and the interval stays; the interval stays in [1.2, 2.8] and never grows, and the level stays in [0, 8] and never shrinks; above the floor a spawn strictly shrinks the interval |
| Director.RunIsMonotone | game.js:777-785 | Over any run of non-negative deltas the director stays valid, the interval never increases and the level never decreases |
| Ledger.Damage | game.js:700-707 | Health becomes max(0, health - amount); the run stops iff it was stopped or health reached 0; from a valid ledger and a non-negative amount, the ledger stays valid and health does not rise; at zero health it stays at zero |
| Ledger.BestScore | game.js:317-323 | The best score is the maximum of the score and the previous best |
| Ledger.DamageNClamps | game.js:700-707 | n hits of the same amount leave max(0, health - n·amount), so later hits at zero leave zero; the run stops iff health reached zero |
| Collisions.TargetOf | game.js:714-732 | The inner scan strikes the highest-index ship the projectile overlaps, and misses only when it overlaps none |
| Collisions.Strike | game.js:715-730 | A strike lowers the ship's health by the projectile's damage and sets its flash to 0.35; if health reaches 0 the ship is removed, the score rises by exactly 100, the best score is updated and one explosion appears at its centre; otherwise one spark in the projectile's colour (white if none) appears and the score is unchanged |
| Collisions.Resolve | game.js:711-737 | A projectile is consumed iff it overlaps some ship, and a projectile that overlaps none changes nothing |
| Collisions.ProjectilePassAccounting | game.js:711-738 | Pass 1 removes each projectile at most once and only projectiles of the store; each removed projectile appends exactly one effect; no more ships are destroyed than projectiles consumed; the score rises by exactly 100 per destroyed ship; the best score ends as the maximum of the old best and the new score |
| Collisions.ProjectilePassEffectsStarted | game.js:711-738 | Every effect pass 1 appends has started |
| Collisions.Untouched | game.js:740-773 | The ships that touch neither the player nor a companion, in order, are exactly those of the store that touch nothing |
| Collisions.ContactPassOutcome | game.js:740-773 | Pass 2 keeps exactly the ships that touch nothing, unchanged and in order; the effects become the old ones followed by CrashExplosions, one explosion per removed ship; the character's damage is applied exactly once per removed ship |
| Collisions.ContactPassExplosions | game.js:744-746 | The effects after pass 2 are the old ones followed by exactly the explosions of the touching ships, last ship first |
| Collisions.CrashExplosionsAtCrashes | game.js:744-746 | Every explosion pass 2 appends is an explosion (life 0, radius up to 120) at the centre of a ship of the store that touches the player or a companion |
| Collisions.ContactPassKeepsLedger | game.js:740-773 | After pass 2, health is still in [0, maxLives], has not risen, and the run is still going iff it was and health is above zero |
| Collisions.ContactPassEffectsStarted | game.js:740-773 | Every effect pass 2 appends has started |
| Companions.Smoothing | game.js:586 | The share of the gap a companion closes in one frame lies in [0, 1] |
| Companions.Follow | game.js:587-595 | A companion moves towards its spot beside the player without overshooting, stands on the ground, and its cooldown counts down to 0 and never below, reaching 0 iff it was at most delta |
| Companions.TopmostIndex | game.js:500-503 | The target is a ship of least y, and the first such ship in store order |
| Companions.AimedShot | game.js:504-530 | A companion's shot starts at the companion's centre, 6 units up, with its size, colour and trail, belongs to the companion and deals 1 damage |
| Companions.Fire | game.js:493-533 | A companion fires iff its cooldown has run out and some ship exists; the shot is aimed at the topmost ship and the cooldown re-arms into [0.8, 1.2]·fireCooldown; a companion that does not fire is unchanged |
| Companions.FireAll | game.js:535-543 | A volley keeps every companion and fires at most one shot per companion |
| Companions.FireAllAnimals | game.js:535-543 | After a volley each companion is exactly as its own shot attempt left it |
| Companions.FireAllFires | game.js:535-543 | A volley fires something iff some ship exists and some companion's cooldown had run out |
| Companions.FireAllShotKinds | game.js:535-543 | Every shot of a volley belongs to a companion and deals 1 damage |
| Companions.FireAllKeepsCompanions | game.js:535-543 | A volley keeps the cat and the dog in place, in order, with non-negative cooldowns |
| Companions.AutoTick | game.js:587-599 | A companion moves towards its spot beside the player without overshooting and stands on the ground; it fires iff auto-fire is on, a ship exists and its cooldown runs out within this frame; if it fires, the outcome is Fire's for the followed companion (the shot aimed at the topmost ship, the cooldown re-armed into [0.8, 1.2]·fireCooldown), and otherwise it is exactly the followed companion; its cooldown stays non-negative |
| Companions.AutoTickAll | game.js:585-600 | updateAnimals keeps every companion and fires at most one shot per companion |
| Companions.AutoTickAllAnimals | game.js:585-600 | After updateAnimals each companion is exactly as its own turn left it |
| Companions.AutoTickAllFires | game.js:585-600 | updateAnimals fires something iff auto-fire is on, a ship exists and some cooldown runs out within the frame; with auto-fire off it never fires |
| Companions.AutoTickAllShotKinds | game.js:585-600 | Every shot of updateAnimals belongs to a companion and deals 1 damage |
| Companions.AutoTickAllKeepsCompanions | game.js:585-600 | updateAnimals keeps the cat and the dog in place, in order, with non-negative cooldowns |
| Companions.Place | game.js:216-220 | A placed companion stands on the ground at its offset from the player's centre, with a cooldown in [0.4, 1.2]·fireCooldown |
| Companions.PlaceAll | game.js:215-221 | Every companion is placed with its own draw, and placing the cat and the dog makes them valid whatever their cooldowns were |
| Input.ControlOf | game.js:357-394 | Every key code drives a control except S and unknown keys |
| Input.PressKey | game.js:354-402 | A key press holds the key's own control and leaves every other control as it was |
| Input.ReleaseKey | game.js:404-427 | A key release clears only the key's own control |
| Input.PressReleaseRestoresOthers | game.js:354-427 | Pressing and releasing a key leaves every other control as it was before |
| Input.ShiftDown | game.js:371-387 | Shift ends up held. A press while Shift is held changes nothing else. A press within 350 ms of the last tap toggles auto-fire, forgets the tap and fires a volley iff auto-fire is now on. Any other press records its time and fires a volley unless it is an auto-repeat |
| Input.DoubleTapToggles | game.js:371-387 | A press, a release and a second press within 350 ms toggle auto-fire and forget the tap; the first press fires a volley, and the second fires one iff auto-fire was turned on |
| Input.HeldShiftIsInert | game.js:371-387 | While Shift is held, further presses neither toggle auto-fire nor fire |
| Input.KeyDownVolley | game.js:371-394 | Space fires a volley iff Shift is reported or held and the press is not an auto-repeat; other non-Shift keys never fire one; a Shift press while Shift is held does not fire; a fresh Shift press outside the double-tap window fires iff it is not an auto-repeat; an auto-repeat fires only as the second tap of a double tap that turns auto-fire on |
| PlayerPhysics.Steer | game.js:551-558 | With one direction held the speed moves towards that direction and is capped at the character's speed; with both or neither held the speed decays by friction and snaps to 0 below 10; a player within the cap stays within it |
| PlayerPhysics.SteerKeepsSpeedFromBeforeSwitch | game.js:551-554 | After a switch to the slower character, one direction held can leave the player faster than the current character's speed |
| PlayerPhysics.Move | game.js:551-575 | The player stays inside [20, width - 92] and never below the ground; a grounded player stays vertically still on the ground line; airborne, vy gains gravity (after a jump from the ground, from the jump strength); the fire cooldown is untouched |
| PlayerPhysics.PlayerShot | game.js:475-491 | The player's shot leaves from the top middle of the player (30 down), goes straight up at the character's projectile speed, belongs to the player and deals 2 damage |
| PlayerPhysics.PlayerStep | game.js:546-582 | The player fires iff shoot is held and the cooldown has run out; after a shot the cooldown is fireCooldown - delta, floored at 0; the cooldown stays non-negative and never exceeds the larger of its old value and the character's; the player invariant is kept on a wide enough canvas |
| PlayerPhysics.NoJumpInTheAir | game.js:563-569 | An airborne player's vertical speed only gains gravity, unless it lands |
| PlayerPhysics.JumpFromGround | game.js:563-569 | A grounded player holding up leaves the ground with the jump strength plus one frame of gravity, unless it lands at once |
| Game.Player.constructor | game.js:124-133 | The player starts at the given position, at rest, in the air, with no cooldown |
| Game.Player.Stand | game.js:235-240 | The reset player stands on the ground at the given x, at rest, with no cooldown |
| Game.Game.constructor | game.js:38-153 | The state after loading: the globals' initial values followed by resetGame(false); the invariant holds, the run is stopped, the score and best score are 0, health is full, the stores are empty, no key is held and auto-fire is off |
| Game.Game.PositionAnimals | game.js:215-221 | Every companion is placed beside the player with its own cooldown draw |
| Game.Game.ResetGame | game.js:224-258 | A fresh run: score 0, full health, the initial director, empty stores, the first character standing in the middle, companions placed; the run starts iff asked; the invariant holds |
| Game.Game.UpdateDifficulty | game.js:777-785 | The director advances by one tick, and a ship spawned at the level from before the tick is appended exactly when the tick spawns |
| Game.Game.ShootProjectile | game.js:475-491 | With the cooldown running nothing happens; otherwise one player shot is appended and the cooldown re-arms to the character's |
| Game.Game.UpdatePlayer | game.js:546-582 | The player becomes PlayerStep's body, and PlayerStep's shot (if any) is appended to the projectiles |
| Game.Game.ShootAnimalProjectile | game.js:493-533 | Companion i becomes its Fire outcome, its shot (if any) is appended, and the result says whether it fired |
| Game.Game.FireTurn | game.js:537-541 | One companion's turn of the volley extends the volley by that companion |
| Game.Game.FireSupportAnimals | game.js:535-543 | The companions and projectiles become the volley's, and the result is true iff the volley fired at least one shot |
| Game.Game.TickAnimal | game.js:587-599 | Companion i becomes its AutoTick outcome and its shot (if any) is appended |
| Game.Game.TickTurn | game.js:587-599 | One companion's turn of updateAnimals extends the frame's companion update by that companion |
| Game.Game.UpdateAnimals | game.js:585-600 | The companions and the appended shots are those of AutoTickAll |
| Game.Game.UpdateProjectiles | game.js:603-619 | The reverse splicing scan leaves exactly AdvanceProjectiles of the old store |
| Game.Game.UpdateEnemies | game.js:622-641 | The reverse splicing scan leaves exactly AdvanceEnemies of the old store |
| Game.Game.UpdateExplosions | game.js:670-681 | The reverse splicing scan leaves exactly AdvanceEffects of the old store |
| Game.Game.ApplyDamage | game.js:700-707 | Health and the running flag become those of Damage |
| Game.Game.RegisterBestScore | game.js:317-323 | The best score becomes the maximum of the score and the old best |
| Game.Game.ResolveProjectile | game.js:712-737 | Projectile i is spliced out iff it struck a ship, and the ships, effects and scores become Resolve's |
| Game.Game.ResolveProjectileHits | game.js:711-738 | The nested reverse scan with break leaves exactly ProjectilePass of the old stores |
| Game.Game.TouchesAnimal | game.js:751-762 | The inner loop over companions reports whether the ship overlaps some companion's hitbox |
| Game.Game.Crash | game.js:744-748 | A crashing ship is spliced out, one explosion is appended at its centre, and the damage is applied once |
| Game.Game.ContactTurn | game.js:741-772 | One step of the contact scan keeps the scan's invariant one index lower |
| Game.Game.ResolveContacts | game.js:740-773 | The reverse contact scan leaves exactly ContactPass's ships, effects, health and running flag |
| Game.Game.StrikePhase | game.js:711-738 | Pass 1 on the game keeps the invariant, ends as ProjectilePass, and never lowers the score or the best score |
| Game.Game.ContactPhase | game.js:740-773 | Pass 2 on the game keeps the invariant, ends as ContactPass, and never raises health |
| Game.Game.CheckCollisions | game.js:710-774 | Pass 1 then pass 2 on what pass 1 left; the invariant is kept, the score and best score never go down and health never goes up |
| Game.Game.SwitchCharacter | game.js:433-453 | With the run stopped nothing changes; otherwise the character alternates and one switch flash in the new character's colour is appended at the player's centre |
| Game.Game.FireVolley | game.js:535-543 | A volley on the game keeps the invariant and ends as FireAll |
| Game.Game.PressShift | game.js:371-387 | Shift is held afterwards; the Shift state becomes ShiftDown's, and the companions fire a volley exactly when ShiftDown says so |
| Game.Game.PressSpace | game.js:388-394 | Shoot is held afterwards, and a volley is fired iff Shift is reported or held and the press is not an auto-repeat |
| Game.Game.PressOther | game.js:354-402 | A movement key holds its own control only; S switches the character while the run is going |
| Game.Game.HandleKeyDown | game.js:354-402 | The whole key-down handler keeps the invariant; the companions fire a volley (and the projectiles grow by its shots) exactly when KeyDownVolley says so, and otherwise the companions and projectiles are unchanged; Shift and Space hold their control, Shift updates the double-tap state as ShiftDown; every other key as PressOther |
| Game.Game.HandleKeyUp | game.js:404-427 | The key's own control is released and nothing else changes |
| Game.Game.Blur | game.js:1052-1055 | Losing focus releases every control |
| Game.Game.MoveRunner | game.js:1025-1026 | The director advances by one tick and appends a ship exactly when the tick spawns; then the player becomes PlayerStep's body and its shot (if any) is appended; the invariant is kept |
| Game.Game.MoveCompanions | game.js:1027 | The companions and the appended shots are those of AutoTickAll for the player's current position and the current ships; the invariant is kept |
| Game.Game.AgeShots | game.js:1028-1029 | The projectiles become AdvanceProjectiles and then the ships become AdvanceEnemies of their old stores; the invariant is kept |
| Game.Game.AgeEffects | game.js:1030 | The effects become AdvanceEffects of the old store, and the invariant is kept: every effect left has started |
| Game.Game.MoveActors | game.js:1025-1027 | The first three updates in order: the director ticks; the player becomes PlayerStep's body; the companions become AutoTickAll's for the player's NEW position and the ships including one spawned this frame; the projectile store becomes the old one followed by the player's shot (if any) and then the companions' shots; the invariant is kept |
| Game.Game.AgeAndCollide | game.js:1028-1031 | The last four updates in order: the projectiles, ships and effects are aged, then pass 1 runs on the aged stores and pass 2 on what pass 1 left, giving exactly the stores, scores, health and running flag of that composition; the score and best score never go down and health never goes up |
| Game.Game.Step | game.js:1020-1031 | Once the run has stopped, a frame changes nothing; otherwise MoveActors then AgeAndCollide run the seven updates in order; the invariant is kept, the score and best score never go down and health never goes up |

## Left out

- Drawing, the HUD and the overlays (game.js:260-351, 788-1017) are not modelled. They only display state.
- Asset loading, sound playback, audio unlocking and the visibility handler are not modelled. They are asynchronous browser I/O.
- The best-score persistence (`loadBestScore`, `saveBestScore`) is not modelled. It is `localStorage` I/O. `loadBestScore` is never called by the game, so the best score starts at 0.
- The `requestAnimationFrame` driver, `lastTime` and the NaN-to-0 guard of `loop` are not modelled. A frame is `Game.Step` given its delta directly.
- `performance.now()` is a parameter of the Shift handler.
- `Math.random()` draws are parameters with values in [0, 1).
- `Math.sin` (the zigzag speed) and `Math.hypot` (the aim length) are arbitrary function parameters. Neither the zigzag speed nor the direction or length of a companion's aim is verified.
- Numbers are exact reals. IEEE rounding, infinities and NaN are not modelled.
- A negative delta is excluded by precondition. The code would integrate it as given.
- The canvas size is a constructor parameter. The page's markup, which sets it, is not part of this model.
- The JavaScript fallbacks (`?? 0`, `?? 1`, `?? 2`, `|| 0`, the `typeof` checks for an undefined companion position or projectile speed) are not modelled. Every record in the game carries every field once it has been positioned.
- The companions' positions before the first `positionAnimals` are undefined in the game. The constructor starts them at the origin, and the reset immediately overwrites them.
- Game.Game.ResetGame: runs `positionAnimals` right after the player is reset rather than after all the globals. `positionAnimals` reads only the player and the ground line, so the outcome is the same.
- Game.Game.ResetGame: says nothing about the keys, the auto-fire mode, the last Shift tap or the best score. They lie outside its `modifies` frame, so they are unchanged.
- Game.Game.Step: states the invariant and the score, best-score and health bounds rather than the exact new state. The exact new state is stated by MoveActors and AgeAndCollide, which Step runs in that order.
- Game.Game.constructor: requires a canvas at least 112 wide, so that the player's clamp range [20, width - 92] is not empty.
- PlayerPhysics.Steer: bounds the speed by the character's speed only for a player already within it. After a switch to the slower character, the speed of the faster one can persist for a while (`PlayerPhysics.SteerKeepsSpeedFromBeforeSwitch`). `Game.Valid` therefore bounds the player's speed by the fastest character's speed.
- Game.Game.PressOther: describes the movement keys through `Input.PressKey`, whose contract says that only the key's own control changes.

=== FILE: collisions.dfy ===
/**
 * The collision resolver (checkCollisions) as two passes over values.
 *
 * Pass 1, projectile vs enemy: projectiles are taken from the last index down;
 * each is tested against the enemies from the last index down and strikes the
 * first (highest-index) enemy it overlaps, if any. The outcome therefore depends
 * on the order of both stores.
 *
 * Pass 2, enemy vs player and companions: enemies are taken from the last index
 * down; an enemy that overlaps the player's box or a companion's box is removed
 * and costs the player one damage application.
 */
module Collisions {
  import opened Geometry
  import opened Entities
  import opened Ledger

  const HitFlashTime: real := 0.35

  predicate Hits(p: Projectile, e: Enemy)
  {
    CircleRectCollision(Circle(p.x, p.y, p.radius), EnemyBox(e))
  }

  /** `projectile.color || '#ffffff'`: the empty string is falsy. */
  function SparkColor(p: Projectile): string
  {
    if p.color == "" then "#ffffff" else p.color
  }

  // ---------------------------------------------------------------- pass 1

  datatype Target = Miss | Struck(index: nat)

  /** The inner loop of pass 1: the highest-index enemy the projectile overlaps. */
  function TargetOf(p: Projectile, es: seq<Enemy>): (t: Target)
    ensures t.Struck? ==>
              t.index < |es| && Hits(p, es[t.index]) &&
              forall k :: t.index < k < |es| ==> !Hits(p, es[k])
    ensures t.Miss? ==> forall k :: 0 <= k < |es| ==> !Hits(p, es[k])
    decreases |es|
  {
    if es == [] then Miss
    else if Hits(p, es[|es| - 1]) then Struck(|es| - 1)
    else
      assert forall k :: 0 <= k < |es| - 1 ==> es[..|es| - 1][k] == es[k];
      TargetOf(p, es[..|es| - 1])
  }

  /** What pass 1 changes besides the projectile store. */
  datatype HitStateOf<E, F> = HitState(enemies: E, effects: F, score: int, bestScore: int)
  type HitState = HitStateOf<seq<Enemy>, seq<Effect>>

  /**
   * Projectile p strikes enemy j: the enemy loses p.damage and flashes; a
   * destroyed enemy is removed, scores the kill reward and leaves an explosion,
   * a surviving one leaves a spark in the projectile's colour.
   */
  function Strike(p: Projectile, st: HitState, j: nat): (r: HitState)
    requires j < |st.enemies|
    ensures |r.effects| == |st.effects| + 1 && r.effects[..|st.effects|] == st.effects
    ensures var e := st.enemies[j];
            if e.health - p.damage <= 0.0 then
              r.enemies == st.enemies[..j] + st.enemies[j + 1..] &&
              r.score == st.score + KillReward &&
              r.bestScore == BestScore(r.score, st.bestScore) &&
              r.effects[|st.effects|] == Explosion(CenterX(e), CenterY(e))
            else
              r.enemies == st.enemies[j := e.(health := e.health - p.damage, hitFlash := HitFlashTime)] &&
              r.score == st.score && r.bestScore == st.bestScore &&
              r.effects[|st.effects|] == HitSpark(CenterX(e), CenterY(e), SparkColor(p))
  {
    var e := st.enemies[j];
    var hurt := e.(health := e.health - p.damage, hitFlash := HitFlashTime);
    if hurt.health <= 0.0 then
      var score := st.score + KillReward;
      HitState(st.enemies[..j] + st.enemies[j + 1..],
               st.effects + [Explosion(CenterX(hurt), CenterY(hurt))],
               score, BestScore(score, st.bestScore))
    else
      HitState(st.enemies[j := hurt],
               st.effects + [HitSpark(CenterX(hurt), CenterY(hurt), SparkColor(p))],
               st.score, st.bestScore)
  }

  datatype Resolution = Resolution(hit: bool, state: HitState)

  /** One iteration of the outer loop of pass 1. */
  function Resolve(p: Projectile, st: HitState): (r: Resolution)
    ensures r.hit <==> exists k :: 0 <= k < |st.enemies| && Hits(p, st.enemies[k])
    ensures !r.hit ==> r.state == st
  {
    match TargetOf(p, st.enemies)
    case Miss => Resolution(false, st)
    case Struck(j) => Resolution(true, Strike(p, st, j))
  }

  datatype PassOutOf<P> = PassOut(kept: P, state: HitState)
  type PassOut = PassOutOf<seq<Projectile>>

  /** Pass 1 over a whole projectile store, last projectile first. */
  function ProjectilePass(ps: seq<Projectile>, st: HitState): (r: PassOut)
    decreases |ps|
  {
    if ps == [] then PassOut([], st)
    else
      var res := Resolve(ps[|ps| - 1], st);
      var rest := ProjectilePass(ps[..|ps| - 1], res.state);
      PassOut(rest.kept + (if res.hit then [] else [ps[|ps| - 1]]), rest.state)
  }

  /** One step of the reverse scan of pass 1: projectile i is resolved before the ones below it. */
  lemma ProjectilePassStep(ps: seq<Projectile>, i: nat, st: HitState)
    requires i < |ps|
    ensures var res := Resolve(ps[i], st);
            var rest := ProjectilePass(ps[..i], res.state);
            ProjectilePass(ps[..i + 1], st) == PassOut(rest.kept + (if res.hit then [] else [ps[i]]), rest.state)
  {
    assert ps[..i + 1][..i] == ps[..i];
  }

  /**
   * Accounting of pass 1: every projectile is removed at most once; each removed
   * projectile appended exactly one effect; each destroyed enemy added exactly
   * the kill reward; destroyed enemies never outnumber removed projectiles; and
   * the best score ends as the maximum of the old best and the new score.
   */
  lemma {:induction false} ProjectilePassAccounting(ps: seq<Projectile>, st: HitState)
    requires st.score <= st.bestScore
    ensures var r := ProjectilePass(ps, st);
            && |r.kept| <= |ps|
            && (forall q :: q in r.kept ==> q in ps)
            && |r.state.effects| == |st.effects| + (|ps| - |r.kept|)
            && r.state.effects[..|st.effects|] == st.effects
            && |r.state.enemies| <= |st.enemies|
            && |st.enemies| - |r.state.enemies| <= |ps| - |r.kept|
            && r.state.score == st.score + KillReward * (|st.enemies| - |r.state.enemies|)
            && r.state.bestScore == BestScore(r.state.score, st.bestScore)
    decreases |ps|
  {
    if ps != [] {
      var p := ps[|ps| - 1];
      var res := Resolve(p, st);
      assert res.state.score <= res.state.bestScore;
      ProjectilePassAccounting(ps[..|ps| - 1], res.state);
      var rest := ProjectilePass(ps[..|ps| - 1], res.state);
      assert forall q :: q in ps[..|ps| - 1] ==> q in ps;
      assert rest.state.effects[..|res.state.effects|] == res.state.effects;
      assert res.state.effects[..|st.effects|] == st.effects;
      assert rest.state.effects[..|st.effects|] == rest.state.effects[..|res.state.effects|][..|st.effects|];
    }
  }

  /** Every effect pass 1 appends is a fresh explosion or spark. */
  lemma {:induction false} ProjectilePassEffectsStarted(ps: seq<Projectile>, st: HitState)
    requires AllStarted(st.effects)
    ensures AllStarted(ProjectilePass(ps, st).state.effects)
    decreases |ps|
  {
    if ps != [] {
      var res := Resolve(ps[|ps| - 1], st);
      assert AllStarted(res.state.effects);
      ProjectilePassEffectsStarted(ps[..|ps| - 1], res.state);
    }
  }

  // ---------------------------------------------------------------- pass 2

  predicate TouchesCompanion(e: Enemy, companionBoxes: seq<Rect>)
  {
    exists k :: 0 <= k < |companionBoxes| && RectsIntersect(companionBoxes[k], EnemyBox(e))
  }

  /** The enemy overlaps the player's box or one of the companions' boxes. */
  predicate Touches(e: Enemy, playerBox: Rect, companionBoxes: seq<Rect>)
  {
    RectsIntersect(playerBox, EnemyBox(e)) || TouchesCompanion(e, companionBoxes)
  }

  /** The enemies that touch nothing, in their original order. */
  function Untouched(es: seq<Enemy>, playerBox: Rect, companionBoxes: seq<Rect>): (r: seq<Enemy>)
    ensures |r| <= |es|
    ensures forall e :: e in r ==> e in es && !Touches(e, playerBox, companionBoxes)
    ensures forall k :: 0 <= k < |es| && !Touches(es[k], playerBox, companionBoxes) ==> es[k] in r
    decreases |es|
  {
    if es == [] then []
    else
      var e := es[|es| - 1];
      assert forall k :: 0 <= k < |es| - 1 ==> es[..|es| - 1][k] == es[k];
      Untouched(es[..|es| - 1], playerBox, companionBoxes) + (if Touches(e, playerBox, companionBoxes) then [] else [e])
  }

  /**
   * The explosions pass 2 appends: one at the centre of every ship that touches
   * the player or a companion, the last ship's first.
   */
  function CrashExplosions(es: seq<Enemy>, playerBox: Rect, companionBoxes: seq<Rect>): seq<Effect>
    decreases |es|
  {
    if es == [] then []
    else
      var e := es[|es| - 1];
      (if Touches(e, playerBox, companionBoxes) then [Explosion(CenterX(e), CenterY(e))] else [])
        + CrashExplosions(es[..|es| - 1], playerBox, companionBoxes)
  }

  /** Each explosion of pass 2 lies at the centre of a ship of the store that touches the player or a companion. */
  lemma {:induction false} CrashExplosionsAtCrashes(es: seq<Enemy>, playerBox: Rect, companionBoxes: seq<Rect>, k: nat)
    requires k < |CrashExplosions(es, playerBox, companionBoxes)|
    ensures exists j :: 0 <= j < |es| && Touches(es[j], playerBox, companionBoxes)
                        && CrashExplosions(es, playerBox, companionBoxes)[k] == Explosion(CenterX(es[j]), CenterY(es[j]))
    decreases |es|
  {
    var n := |es| - 1;
    var e := es[n];
    var head := if Touches(e, playerBox, companionBoxes) then [Explosion(CenterX(e), CenterY(e))] else [];
    if k < |head| {
      assert Touches(es[n], playerBox, companionBoxes);
    } else {
      CrashExplosionsAtCrashes(es[..n], playerBox, companionBoxes, k - |head|);
      var j :| 0 <= j < n && Touches(es[..n][j], playerBox, companionBoxes)
               && CrashExplosions(es[..n], playerBox, companionBoxes)[k - |head|] == Explosion(CenterX(es[..n][j]), CenterY(es[..n][j]));
      assert es[..n][j] == es[j];
    }
  }

  datatype ContactOutOf<E, F> = ContactOut(kept: E, effects: F, ledger: Ledger)
  type ContactOut = ContactOutOf<seq<Enemy>, seq<Effect>>

  /** Pass 2 over a whole enemy store, last enemy first. */
  function ContactPass(es: seq<Enemy>, fx: seq<Effect>, l: Ledger, playerBox: Rect, companionBoxes: seq<Rect>, damage: real): (r: ContactOut)
    decreases |es|
  {
    if es == [] then ContactOut([], fx, l)
    else
      var e := es[|es| - 1];
      if Touches(e, playerBox, companionBoxes) then
        ContactPass(es[..|es| - 1], fx + [Explosion(CenterX(e), CenterY(e))], Damage(l, damage),
                    playerBox, companionBoxes, damage)
      else
        var rest := ContactPass(es[..|es| - 1], fx, l, playerBox, companionBoxes, damage);
        ContactOut(rest.kept + [e], rest.effects, rest.ledger)
  }

  /** One more enemy of pass 2: the pass over the first i + 1 enemies starts with enemy i. */
  lemma ContactPassStep(es: seq<Enemy>, i: nat, fx: seq<Effect>, l: Ledger, playerBox: Rect, companionBoxes: seq<Rect>, damage: real)
    requires i < |es|
    ensures var e := es[i];
            var whole := ContactPass(es[..i + 1], fx, l, playerBox, companionBoxes, damage);
            if Touches(e, playerBox, companionBoxes) then
              whole == ContactPass(es[..i], fx + [Explosion(CenterX(e), CenterY(e))], Damage(l, damage), playerBox, companionBoxes, damage)
            else
              var rest := ContactPass(es[..i], fx, l, playerBox, companionBoxes, damage);
              whole == ContactOut(rest.kept + [e], rest.effects, rest.ledger)
  {
    assert es[..i + 1][..i] == es[..i];
  }

  /**
   * Pass 2 keeps exactly the enemies that touch nothing, unchanged and in order;
   * every removed enemy appends one explosion at its centre and applies the
   * damage once; so
   * health ends clamped in [0, maxLives] and the run stops iff health reached 0.
   */
  lemma {:induction false} ContactPassOutcome(es: seq<Enemy>, fx: seq<Effect>, l: Ledger, playerBox: Rect, companionBoxes: seq<Rect>, damage: real)
    ensures var r := ContactPass(es, fx, l, playerBox, companionBoxes, damage);
            && r.kept == Untouched(es, playerBox, companionBoxes)
            && |r.effects| == |fx| + (|es| - |r.kept|)
            && r.effects[..|fx|] == fx
            && r.effects == fx + CrashExplosions(es, playerBox, companionBoxes)
            && r.ledger == DamageN(l, damage, |es| - |r.kept|)
    decreases |es|
  {
    ContactPassExplosions(es, fx, l, playerBox, companionBoxes, damage);
    if es != [] {
      var e := es[|es| - 1];
      var es' := es[..|es| - 1];
      if Touches(e, playerBox, companionBoxes) {
        var fx' := fx + [Explosion(CenterX(e), CenterY(e))];
        ContactPassOutcome(es', fx', Damage(l, damage), playerBox, companionBoxes, damage);
        var r := ContactPass(es', fx', Damage(l, damage), playerBox, companionBoxes, damage);
        assert r.effects[..|fx|] == r.effects[..|fx'|][..|fx|];
      } else {
        ContactPassOutcome(es', fx, l, playerBox, companionBoxes, damage);
      }
    }
  }

  /** The explosion a crashing ship leaves, if it crashes. */
  function CrashHead(e: Enemy, playerBox: Rect, companionBoxes: seq<Rect>): seq<Effect>
  {
    if Touches(e, playerBox, companionBoxes) then [Explosion(CenterX(e), CenterY(e))] else []
  }

  /** One unfolding of pass 2 and of CrashExplosions at the last ship. */
  lemma ContactPassUnfold(es: seq<Enemy>, fx: seq<Effect>, l: Ledger, playerBox: Rect, companionBoxes: seq<Rect>, damage: real)
    requires es != []
    ensures var e := es[|es| - 1];
            var l' := if Touches(e, playerBox, companionBoxes) then Damage(l, damage) else l;
            && ContactPass(es, fx, l, playerBox, companionBoxes, damage).effects
                 == ContactPass(es[..|es| - 1], fx + CrashHead(e, playerBox, companionBoxes), l', playerBox, companionBoxes, damage).effects
            && CrashExplosions(es, playerBox, companionBoxes)
                 == CrashHead(e, playerBox, companionBoxes) + CrashExplosions(es[..|es| - 1], playerBox, companionBoxes)
  {
    assert fx + [] == fx;
  }

  /** The effects after pass 2 are the old ones followed by exactly CrashExplosions, in scan order. */
  lemma {:induction false} ContactPassExplosions(es: seq<Enemy>, fx: seq<Effect>, l: Ledger, playerBox: Rect, companionBoxes: seq<Rect>, damage: real)
    ensures ContactPass(es, fx, l, playerBox, companionBoxes, damage).effects == fx + CrashExplosions(es, playerBox, companionBoxes)
    decreases |es|
  {
    if es != [] {
      var e := es[|es| - 1];
      var head := CrashHead(e, playerBox, companionBoxes);
      var l' := if Touches(e, playerBox, companionBoxes) then Damage(l, damage) else l;
      ContactPassUnfold(es, fx, l, playerBox, companionBoxes, damage);
      ContactPassExplosions(es[..|es| - 1], fx + head, l', playerBox, companionBoxes, damage);
      var rest := CrashExplosions(es[..|es| - 1], playerBox, companionBoxes);
      assert fx + head + rest == fx + (head + rest);
    }
  }

  /** The ledger after pass 2 is still valid and the run stops exactly when health is gone. */
  lemma ContactPassKeepsLedger(es: seq<Enemy>, fx: seq<Effect>, l: Ledger, playerBox: Rect, companionBoxes: seq<Rect>, damage: real)
    requires LedgerValid(l) && damage >= 0.0
    ensures var r := ContactPass(es, fx, l, playerBox, companionBoxes, damage);
            && LedgerValid(r.ledger)
            && r.ledger.health <= l.health
            && (r.ledger.running <==> l.running && r.ledger.health > 0.0)
  {
    ContactPassOutcome(es, fx, l, playerBox, companionBoxes, damage);
    var r := ContactPass(es, fx, l, playerBox, companionBoxes, damage);
    DamageNClamps(l, damage, |es| - |r.kept|);
  }

  /** Every effect pass 2 appends has started. */
  lemma {:induction false} ContactPassEffectsStarted(es: seq<Enemy>, fx: seq<Effect>, l: Ledger, playerBox: Rect, companionBoxes: seq<Rect>, damage: real)
    requires AllStarted(fx)
    ensures AllStarted(ContactPass(es, fx, l, playerBox, companionBoxes, damage).effects)
    decreases |es|
  {
    if es != [] {
      var e := es[|es| - 1];
      var fx' := fx + [Explosion(CenterX(e), CenterY(e))];
      assert AllStarted(fx');
      ContactPassEffectsStarted(es[..|es| - 1], fx', Damage(l, damage), playerBox, companionBoxes, damage);
      ContactPassEffectsStarted(es[..|es| - 1], fx, l, playerBox, companionBoxes, damage);
    }
  }
}

=== FILE: companions.dfy ===
/**
 * Companion logic: following the player (updateAnimals), target selection and
 * the aimed shot (shootAnimalProjectile), and the synchronised volley
 * (fireSupportAnimals). Math.hypot is a parameter: the direction and length of
 * the aim vector are not verified.
 */
module Companions {
  import opened Geometry
  import opened Entities

  /** Math.min(1, delta * 6): the share of the gap closed in one frame. */
  function Smoothing(delta: real): (s: real)
    requires delta >= 0.0
    ensures 0.0 <= s <= 1.0
  {
    Min(1.0, delta * 6.0)
  }

  /** Where a companion wants to stand: its offset from the player's centre. */
  function FollowTargetX(a: Animal, playerX: real, playerWidth: real): real
  {
    playerX + playerWidth / 2.0 + a.spec.offsetX - a.spec.width / 2.0
  }

  /**
   * The movement and cooldown part of updateAnimals for one companion: x moves
   * towards its target without overshooting, y sits on the ground, and the
   * cooldown counts down to zero and never below.
   */
  function Follow(a: Animal, playerX: real, playerWidth: real, groundY: real, delta: real): (r: Animal)
    requires delta >= 0.0
    ensures r.spec == a.spec
    ensures Min(a.x, FollowTargetX(a, playerX, playerWidth)) <= r.x <= Max(a.x, FollowTargetX(a, playerX, playerWidth))
    ensures r.y + a.spec.height == groundY
    ensures 0.0 <= r.cooldownTimer <= Max(0.0, a.cooldownTimer)
    ensures r.cooldownTimer <= 0.0 <==> a.cooldownTimer <= delta
  {
    var targetX := FollowTargetX(a, playerX, playerWidth);
    var s := Smoothing(delta);
    var x := a.x + (targetX - a.x) * s;
    MulBetween(targetX - a.x, s);
    Animal(a.spec, x, groundY - a.spec.height, Max(0.0, a.cooldownTimer - delta))
  }

  lemma MulBetween(g: real, s: real)
    ensures 0.0 <= s <= 1.0 ==> Min(0.0, g) <= g * s <= Max(0.0, g)
  {
    if 0.0 <= s <= 1.0 {
      MulNonNeg(g, s);
      MulNonNeg(-g, s);
      MulNonNeg(g, 1.0 - s);
      MulNonNeg(-g, 1.0 - s);
    }
  }

  /** The `enemies.reduce` of shootAnimalProjectile: the topmost enemy (least y), the first one on ties. */
  function TopmostIndex(es: seq<Enemy>): (k: nat)
    requires |es| > 0
    ensures k < |es|
    ensures forall i :: 0 <= i < |es| ==> es[k].y <= es[i].y
    ensures forall i :: 0 <= i < k ==> es[i].y > es[k].y
    decreases |es|
  {
    if |es| == 1 then 0
    else
      var k := TopmostIndex(es[..|es| - 1]);
      assert forall i :: 0 <= i < |es| - 1 ==> es[..|es| - 1][i] == es[i];
      if es[|es| - 1].y < es[k].y then |es| - 1 else k
  }

  /**
   * The projectile a companion fires at a target: it starts at the companion's
   * centre (6 units up), has the companion's size, colour and trail, belongs to
   * the companion and deals 1 damage. The velocity is the vector to the
   * target's centre scaled by projectileSpeed / hypot, with `|| 1` guarding a
   * zero length.
   */
  function AimedShot(a: Animal, target: Enemy, hypot: (real, real) -> real): (p: Projectile)
    ensures p.owner == ByAnimal(a.spec.key) && p.damage == 1.0
    ensures p.x == a.x + a.spec.width / 2.0 && p.y == a.y + a.spec.height / 2.0 - 6.0
    ensures p.radius == a.spec.projectileSize
    ensures p.color == a.spec.projectileColor && p.trail == a.spec.projectileTrail
  {
    var startX := a.x + a.spec.width / 2.0;
    var startY := a.y + a.spec.height / 2.0 - 6.0;
    var dx := CenterX(target) - startX;
    var dy := CenterY(target) - startY;
    var h := hypot(dx, dy);
    var len := if h == 0.0 then 1.0 else h;
    var speed := a.spec.projectileSpeed;
    Projectile(startX, startY, a.spec.projectileSize, dx / len * speed, dy / len * speed,
               a.spec.projectileColor, a.spec.projectileTrail, ByAnimal(a.spec.key), 1.0)
  }

  /** The companion after an attempt to fire, and the projectile it fired if any. */
  datatype Firing = Firing(animal: Animal, shot: Option<Projectile>)

  /**
   * shootAnimalProjectile: a companion fires iff its cooldown has run out and
   * some enemy exists; it aims at the topmost enemy and re-arms its cooldown to
   * a random point of [0.8, 1.2) times its fireCooldown.
   */
  function Fire(a: Animal, es: seq<Enemy>, roll: real, hypot: (real, real) -> real): (r: Firing)
    ensures r.shot.Some? <==> a.cooldownTimer <= 0.0 && |es| > 0
    ensures r.animal.spec == a.spec && r.animal.x == a.x && r.animal.y == a.y
    ensures r.shot.None? ==> r.animal == a
    ensures r.shot.Some? ==>
              && r.shot.value == AimedShot(a, es[TopmostIndex(es)], hypot)
              && r.shot.value.owner == ByAnimal(a.spec.key) && r.shot.value.damage == 1.0
              && (a.spec.fireCooldown >= 0.0 && UnitRoll(roll) ==>
                    0.8 * a.spec.fireCooldown <= r.animal.cooldownTimer <= 1.2 * a.spec.fireCooldown)
  {
    if a.cooldownTimer > 0.0 then Firing(a, None)
    else if |es| == 0 then Firing(a, None)
    else
      var target := es[TopmostIndex(es)];
      var cooldown := a.spec.fireCooldown * (0.8 + roll * 0.4);
      MulNonNeg(a.spec.fireCooldown, roll * 0.4);
      MulNonNeg(a.spec.fireCooldown, 0.4 - roll * 0.4);
      Firing(a.(cooldownTimer := cooldown), Some(AimedShot(a, target, hypot)))
  }

  predicate ValidRolls(rolls: seq<real>)
  {
    forall k :: 0 <= k < |rolls| ==> UnitRoll(rolls[k])
  }

  /** The companions and the projectiles they fired, in companion order. */
  datatype VolleyOf<A, P> = Volley(animals: A, shots: P)
  type Volley = VolleyOf<seq<Animal>, seq<Projectile>>

  /** fireSupportAnimals: every companion attempts to fire in turn, each gated by its own cooldown. */
  function FireAll(pack: seq<Animal>, es: seq<Enemy>, rolls: seq<real>, hypot: (real, real) -> real): (r: Volley)
    requires |rolls| == |pack|
    ensures |r.animals| == |pack| && |r.shots| <= |pack|
    decreases |pack|
  {
    if pack == [] then Volley([], [])
    else
      var n := |pack| - 1;
      var rest := FireAll(pack[..n], es, rolls[..n], hypot);
      var f := Fire(pack[n], es, rolls[n], hypot);
      Volley(rest.animals + [f.animal], rest.shots + OptionSeq(f.shot))
  }

  /** After a volley each companion is as its own Fire left it. */
  lemma {:induction false} FireAllAnimals(pack: seq<Animal>, es: seq<Enemy>, rolls: seq<real>, hypot: (real, real) -> real)
    requires |rolls| == |pack|
    ensures var r := FireAll(pack, es, rolls, hypot);
            forall k :: 0 <= k < |pack| ==> r.animals[k] == Fire(pack[k], es, rolls[k], hypot).animal
    decreases |pack|
  {
    if pack != [] {
      var n := |pack| - 1;
      var r := FireAll(pack, es, rolls, hypot);
      var rest := FireAll(pack[..n], es, rolls[..n], hypot);
      var f := Fire(pack[n], es, rolls[n], hypot);
      assert r.animals == rest.animals + [f.animal];
      FireAllAnimals(pack[..n], es, rolls[..n], hypot);
      forall k | 0 <= k < |pack|
        ensures r.animals[k] == Fire(pack[k], es, rolls[k], hypot).animal
      {
        if k < n {
          assert r.animals[k] == rest.animals[k];
          assert pack[..n][k] == pack[k] && rolls[..n][k] == rolls[k];
        } else {
          assert r.animals[k] == f.animal;
        }
      }
    }
  }

  /** A volley fires something iff some enemy exists and some companion's cooldown had run out. */
  lemma {:induction false} FireAllFires(pack: seq<Animal>, es: seq<Enemy>, rolls: seq<real>, hypot: (real, real) -> real)
    requires |rolls| == |pack|
    ensures |FireAll(pack, es, rolls, hypot).shots| > 0 <==> |es| > 0 && exists k :: 0 <= k < |pack| && pack[k].cooldownTimer <= 0.0
    decreases |pack|
  {
    if pack != [] {
      var n := |pack| - 1;
      var rest := FireAll(pack[..n], es, rolls[..n], hypot);
      var f := Fire(pack[n], es, rolls[n], hypot);
      assert FireAll(pack, es, rolls, hypot).shots == rest.shots + OptionSeq(f.shot);
      FireAllFires(pack[..n], es, rolls[..n], hypot);
      if |rest.shots| > 0 {
        var k :| 0 <= k < n && pack[..n][k].cooldownTimer <= 0.0;
        assert pack[k] == pack[..n][k];
      }
      if |es| > 0 && (exists k :: 0 <= k < |pack| && pack[k].cooldownTimer <= 0.0) {
        var k :| 0 <= k < |pack| && pack[k].cooldownTimer <= 0.0;
        if k < n {
          assert pack[..n][k] == pack[k];
        }
      }
    }
  }

  /** One more companion's turn extends a volley by that companion's Fire. */
  lemma FireAllStep(pack: seq<Animal>, es: seq<Enemy>, rolls: seq<real>, hypot: (real, real) -> real, i: nat)
    requires |rolls| == |pack| && i < |pack|
    ensures var rest := FireAll(pack[..i], es, rolls[..i], hypot);
            var f := Fire(pack[i], es, rolls[i], hypot);
            FireAll(pack[..i + 1], es, rolls[..i + 1], hypot) == Volley(rest.animals + [f.animal], rest.shots + OptionSeq(f.shot))
  {
    assert pack[..i + 1][..i] == pack[..i] && rolls[..i + 1][..i] == rolls[..i];
  }


  /**
   * A loop step over the companions, in place: with the first i companions
   * replaced by the volley so far, replacing companion i by its own turn gives
   * the volley one turn longer.
   */
  lemma VolleyTurn(cur: seq<Animal>, shots: seq<Projectile>, pack: seq<Animal>, i: nat, rest: Volley, f: Firing)
    requires i < |pack| && |rest.animals| == i && cur == rest.animals + pack[i..]
    ensures var next := Volley(rest.animals + [f.animal], rest.shots + OptionSeq(f.shot));
            && i < |cur| && cur[i] == pack[i]
            && cur[i := f.animal] == next.animals + pack[i + 1..]
            && shots + rest.shots + OptionSeq(f.shot) == shots + next.shots
  {
    assert pack[i..] == [pack[i]] + pack[i + 1..];
    assert cur[i := f.animal] == rest.animals + [f.animal] + pack[i + 1..];
  }

  /** A projectile fired by a companion: it belongs to a companion and deals 1 damage. */
  predicate CompanionShot(q: Projectile)
  {
    q.owner.ByAnimal? && q.damage == 1.0
  }

  predicate AllCompanionShots(shots: seq<Projectile>)
  {
    forall k :: 0 <= k < |shots| ==> CompanionShot(shots[k])
  }

  /** Every shot of a volley is a companion's. */
  lemma {:induction false} FireAllShotKinds(pack: seq<Animal>, es: seq<Enemy>, rolls: seq<real>, hypot: (real, real) -> real)
    requires |rolls| == |pack|
    ensures AllCompanionShots(FireAll(pack, es, rolls, hypot).shots)
    decreases |pack|
  {
    if pack != [] {
      var n := |pack| - 1;
      var rest := FireAll(pack[..n], es, rolls[..n], hypot);
      var f := Fire(pack[n], es, rolls[n], hypot);
      var shots := FireAll(pack, es, rolls, hypot).shots;
      assert shots == rest.shots + OptionSeq(f.shot);
      FireAllShotKinds(pack[..n], es, rolls[..n], hypot);
      forall k | 0 <= k < |shots|
        ensures CompanionShot(shots[k])
      {
        if k >= |rest.shots| {
          assert f.shot.Some? && shots[k] == f.shot.value;
        } else {
          assert shots[k] == rest.shots[k];
        }
      }
    }
  }

  /** One companion's turn in updateAnimals: follow, count down, and fire automatically when enabled. */
  function AutoTick(a: Animal, playerX: real, playerWidth: real, groundY: real, delta: real,
                    autoFire: bool, es: seq<Enemy>, roll: real, hypot: (real, real) -> real): (r: Firing)
    requires delta >= 0.0
    ensures r.animal.spec == a.spec && r.animal.y + a.spec.height == groundY
    ensures var target := FollowTargetX(a, playerX, playerWidth);
            Min(a.x, target) <= r.animal.x <= Max(a.x, target)
    ensures r.shot.None? ==> r.animal == Follow(a, playerX, playerWidth, groundY, delta)
    ensures r.shot.Some? ==> r == Fire(Follow(a, playerX, playerWidth, groundY, delta), es, roll, hypot)
    ensures r.shot.Some? <==> autoFire && |es| > 0 && a.cooldownTimer <= delta
    ensures r.shot.Some? ==> CompanionShot(r.shot.value)
    ensures a.spec.fireCooldown >= 0.0 && UnitRoll(roll) ==> r.animal.cooldownTimer >= 0.0
  {
    var f := Follow(a, playerX, playerWidth, groundY, delta);
    if autoFire && |es| > 0 && f.cooldownTimer <= 0.0 then Fire(f, es, roll, hypot)
    else Firing(f, None)
  }

  /** updateAnimals over all companions, in order. */
  function AutoTickAll(pack: seq<Animal>, playerX: real, playerWidth: real, groundY: real, delta: real,
                       autoFire: bool, es: seq<Enemy>, rolls: seq<real>, hypot: (real, real) -> real): (r: Volley)
    requires delta >= 0.0 && |rolls| == |pack|
    ensures |r.animals| == |pack| && |r.shots| <= |pack|
    decreases |pack|
  {
    if pack == [] then Volley([], [])
    else
      var n := |pack| - 1;
      var rest := AutoTickAll(pack[..n], playerX, playerWidth, groundY, delta, autoFire, es, rolls[..n], hypot);
      var f := AutoTick(pack[n], playerX, playerWidth, groundY, delta, autoFire, es, rolls[n], hypot);
      Volley(rest.animals + [f.animal], rest.shots + OptionSeq(f.shot))
  }

  /** One more companion's turn extends updateAnimals by that companion's AutoTick. */
  lemma AutoTickAllStep(pack: seq<Animal>, playerX: real, playerWidth: real, groundY: real, delta: real,
                        autoFire: bool, es: seq<Enemy>, rolls: seq<real>, hypot: (real, real) -> real, i: nat)
    requires delta >= 0.0 && |rolls| == |pack| && i < |pack|
    ensures var rest := AutoTickAll(pack[..i], playerX, playerWidth, groundY, delta, autoFire, es, rolls[..i], hypot);
            var f := AutoTick(pack[i], playerX, playerWidth, groundY, delta, autoFire, es, rolls[i], hypot);
            AutoTickAll(pack[..i + 1], playerX, playerWidth, groundY, delta, autoFire, es, rolls[..i + 1], hypot) ==
              Volley(rest.animals + [f.animal], rest.shots + OptionSeq(f.shot))
  {
    assert pack[..i + 1][..i] == pack[..i] && rolls[..i + 1][..i] == rolls[..i];
  }


  /** After updateAnimals each companion is as its own AutoTick left it. */
  lemma {:induction false} AutoTickAllAnimals(pack: seq<Animal>, playerX: real, playerWidth: real, groundY: real, delta: real,
                                              autoFire: bool, es: seq<Enemy>, rolls: seq<real>, hypot: (real, real) -> real)
    requires delta >= 0.0 && |rolls| == |pack|
    ensures var r := AutoTickAll(pack, playerX, playerWidth, groundY, delta, autoFire, es, rolls, hypot);
            forall k :: 0 <= k < |pack| ==>
              r.animals[k] == AutoTick(pack[k], playerX, playerWidth, groundY, delta, autoFire, es, rolls[k], hypot).animal
    decreases |pack|
  {
    if pack != [] {
      var n := |pack| - 1;
      var r := AutoTickAll(pack, playerX, playerWidth, groundY, delta, autoFire, es, rolls, hypot);
      var rest := AutoTickAll(pack[..n], playerX, playerWidth, groundY, delta, autoFire, es, rolls[..n], hypot);
      var f := AutoTick(pack[n], playerX, playerWidth, groundY, delta, autoFire, es, rolls[n], hypot);
      assert r.animals == rest.animals + [f.animal];
      AutoTickAllAnimals(pack[..n], playerX, playerWidth, groundY, delta, autoFire, es, rolls[..n], hypot);
      forall k | 0 <= k < |pack|
        ensures r.animals[k] == AutoTick(pack[k], playerX, playerWidth, groundY, delta, autoFire, es, rolls[k], hypot).animal
      {
        if k < n {
          assert r.animals[k] == rest.animals[k];
          assert pack[..n][k] == pack[k] && rolls[..n][k] == rolls[k];
        } else {
          assert r.animals[k] == f.animal;
        }
      }
    }
  }

  /**
   * updateAnimals fires something iff auto-fire is on, some enemy exists and
   * some companion's cooldown runs out within this frame; with auto-fire off
   * it fires nothing.
   */
  lemma {:induction false} AutoTickAllFires(pack: seq<Animal>, playerX: real, playerWidth: real, groundY: real, delta: real,
                                            autoFire: bool, es: seq<Enemy>, rolls: seq<real>, hypot: (real, real) -> real)
    requires delta >= 0.0 && |rolls| == |pack|
    ensures var r := AutoTickAll(pack, playerX, playerWidth, groundY, delta, autoFire, es, rolls, hypot);
            |r.shots| > 0 <==> autoFire && |es| > 0 && exists k :: 0 <= k < |pack| && pack[k].cooldownTimer <= delta
    decreases |pack|
  {
    if pack != [] {
      var n := |pack| - 1;
      var rest := AutoTickAll(pack[..n], playerX, playerWidth, groundY, delta, autoFire, es, rolls[..n], hypot);
      var f := AutoTick(pack[n], playerX, playerWidth, groundY, delta, autoFire, es, rolls[n], hypot);
      assert AutoTickAll(pack, playerX, playerWidth, groundY, delta, autoFire, es, rolls, hypot).shots == rest.shots + OptionSeq(f.shot);
      AutoTickAllFires(pack[..n], playerX, playerWidth, groundY, delta, autoFire, es, rolls[..n], hypot);
      if |rest.shots| > 0 {
        var k :| 0 <= k < n && pack[..n][k].cooldownTimer <= delta;
        assert pack[k] == pack[..n][k];
      }
      if autoFire && |es| > 0 && (exists k :: 0 <= k < |pack| && pack[k].cooldownTimer <= delta) {
        var k :| 0 <= k < |pack| && pack[k].cooldownTimer <= delta;
        if k < n {
          assert pack[..n][k] == pack[k];
        }
      }
    }
  }

  /** Every shot of updateAnimals is a companion's. */
  lemma {:induction false} AutoTickAllShotKinds(pack: seq<Animal>, playerX: real, playerWidth: real, groundY: real, delta: real,
                                                autoFire: bool, es: seq<Enemy>, rolls: seq<real>, hypot: (real, real) -> real)
    requires delta >= 0.0 && |rolls| == |pack| && ValidRolls(rolls)
    ensures AllCompanionShots(AutoTickAll(pack, playerX, playerWidth, groundY, delta, autoFire, es, rolls, hypot).shots)
    decreases |pack|
  {
    if pack != [] {
      var n := |pack| - 1;
      var rest := AutoTickAll(pack[..n], playerX, playerWidth, groundY, delta, autoFire, es, rolls[..n], hypot);
      var f := AutoTick(pack[n], playerX, playerWidth, groundY, delta, autoFire, es, rolls[n], hypot);
      var shots := AutoTickAll(pack, playerX, playerWidth, groundY, delta, autoFire, es, rolls, hypot).shots;
      assert shots == rest.shots + OptionSeq(f.shot);
      AutoTickAllShotKinds(pack[..n], playerX, playerWidth, groundY, delta, autoFire, es, rolls[..n], hypot);
      forall k | 0 <= k < |shots|
        ensures CompanionShot(shots[k])
      {
        if k >= |rest.shots| {
          assert f.shot.Some? && shots[k] == f.shot.value;
        } else {
          assert shots[k] == rest.shots[k];
        }
      }
    }
  }

  /** The two companions, cat then dog, with cooldowns that never go negative. */
  predicate CompanionsValid(pack: seq<Animal>)
  {
    |pack| == 2 && pack[0].spec == CatSpec && pack[1].spec == DogSpec &&
    forall k :: 0 <= k < |pack| ==> pack[k].cooldownTimer >= 0.0
  }

  /**
   * positionAnimals for one companion: at its offset from the player, standing
   * on the ground, with a random initial cooldown in [0.4, 1.2) times its
   * fireCooldown.
   */
  function Place(a: Animal, playerX: real, playerWidth: real, groundY: real, roll: real): (r: Animal)
    requires UnitRoll(roll)
    ensures r.spec == a.spec && r.x == FollowTargetX(a, playerX, playerWidth) && r.y + a.spec.height == groundY
    ensures a.spec.fireCooldown >= 0.0 ==>
              0.4 * a.spec.fireCooldown <= r.cooldownTimer <= 1.2 * a.spec.fireCooldown
  {
    MulNonNeg(a.spec.fireCooldown, roll * 0.8);
    MulNonNeg(a.spec.fireCooldown, 0.8 - roll * 0.8);
    a.(x := FollowTargetX(a, playerX, playerWidth),
       y := groundY - a.spec.height,
       cooldownTimer := a.spec.fireCooldown * (0.4 + roll * 0.8))
  }

  /**
   * positionAnimals over all companions: each placed with its own draw. Placing
   * the cat and the dog makes them valid whatever their cooldowns were before.
   */
  function PlaceAll(pack: seq<Animal>, playerX: real, playerWidth: real, groundY: real, rolls: seq<real>): (r: seq<Animal>)
    requires |rolls| == |pack| && ValidRolls(rolls)
    ensures |r| == |pack|
    ensures forall k :: 0 <= k < |pack| ==> r[k] == Place(pack[k], playerX, playerWidth, groundY, rolls[k])
    ensures |pack| == 2 && pack[0].spec == CatSpec && pack[1].spec == DogSpec ==> CompanionsValid(r)
  {
    seq(|pack|, k requires 0 <= k < |pack| => Place(pack[k], playerX, playerWidth, groundY, rolls[k]))
  }

  /** A volley keeps the two companions in place, in order, with non-negative cooldowns. */
  lemma FireAllKeepsCompanions(pack: seq<Animal>, es: seq<Enemy>, rolls: seq<real>, hypot: (real, real) -> real)
    requires |rolls| == |pack| && ValidRolls(rolls)
    requires CompanionsValid(pack)
    ensures CompanionsValid(FireAll(pack, es, rolls, hypot).animals)
  {
    FireAllAnimals(pack, es, rolls, hypot);
  }

  /** updateAnimals keeps the two companions in place, in order, with non-negative cooldowns. */
  lemma AutoTickAllKeepsCompanions(pack: seq<Animal>, playerX: real, playerWidth: real, groundY: real, delta: real,
                                   autoFire: bool, es: seq<Enemy>, rolls: seq<real>, hypot: (real, real) -> real)
    requires delta >= 0.0 && |rolls| == |pack| && ValidRolls(rolls)
    requires CompanionsValid(pack)
    ensures CompanionsValid(AutoTickAll(pack, playerX, playerWidth, groundY, delta, autoFire, es, rolls, hypot).animals)
  {
    AutoTickAllAnimals(pack, playerX, playerWidth, groundY, delta, autoFire, es, rolls, hypot);
  }
}

=== FILE: director.dfy ===
/**
 * The difficulty director (updateDifficulty): a countdown spawn timer, a spawn
 * interval that shrinks by a level-dependent step down to a floor, and a
 * difficulty level that grows with elapsed time up to a cap.
 */
module Director {
  import opened Geometry

  const InitialSpawnInterval: real := 2.8
  const MinSpawnInterval: real := 1.2
  const MaxDifficulty: real := 8.0

  datatype Director = Director(spawnTimer: real, spawnInterval: real, difficultyLevel: real)

  /** The outcome of one tick: the new director and whether an enemy was spawned. */
  datatype Tick = Tick(director: Director, spawned: bool)

  /** The invariant the director keeps for the whole run. */
  predicate DirectorValid(d: Director)
  {
    MinSpawnInterval <= d.spawnInterval <= InitialSpawnInterval &&
    d.spawnTimer <= d.spawnInterval &&
    0.0 <= d.difficultyLevel <= MaxDifficulty
  }

  /**
   * One call of updateDifficulty. At most one enemy spawns per call, exactly when
   * the timer has run out; the new interval uses the level from before the call.
   */
  function DirectorTick(d: Director, delta: real): (r: Tick)
    requires delta >= 0.0
    ensures r.spawned <==> d.spawnTimer - delta <= 0.0
    ensures r.spawned ==> r.director.spawnTimer == r.director.spawnInterval
    ensures !r.spawned ==> r.director.spawnTimer == d.spawnTimer - delta && r.director.spawnInterval == d.spawnInterval
    ensures DirectorValid(d) ==>
              DirectorValid(r.director) &&
              r.director.spawnInterval <= d.spawnInterval &&
              d.difficultyLevel <= r.director.difficultyLevel
    ensures r.spawned && DirectorValid(d) && d.spawnInterval - 0.05 - d.difficultyLevel * 0.005 > MinSpawnInterval ==>
              r.director.spawnInterval < d.spawnInterval
  {
    var timer := d.spawnTimer - delta;
    var spawned := timer <= 0.0;
    var interval :=
      if spawned then Max(MinSpawnInterval, d.spawnInterval - 0.05 - d.difficultyLevel * 0.005)
      else d.spawnInterval;
    var timer' := if spawned then interval else timer;
    var level := Min(MaxDifficulty, d.difficultyLevel + delta * 0.02);
    Tick(Director(timer', interval, level), spawned)
  }

  /** The director after a sequence of frames with the given deltas. */
  function Run(d: Director, deltas: seq<real>): Director
    requires forall k :: 0 <= k < |deltas| ==> deltas[k] >= 0.0
    decreases |deltas|
  {
    if deltas == [] then d
    else Run(DirectorTick(d, deltas[0]).director, deltas[1..])
  }

  /**
   * Over any run of non-negative deltas the spawn interval never increases and
   * never drops below the floor, and the level never decreases nor exceeds the cap.
   */
  lemma {:induction false} RunIsMonotone(d: Director, deltas: seq<real>)
    requires forall k :: 0 <= k < |deltas| ==> deltas[k] >= 0.0
    requires DirectorValid(d)
    ensures DirectorValid(Run(d, deltas))
    ensures Run(d, deltas).spawnInterval <= d.spawnInterval
    ensures d.difficultyLevel <= Run(d, deltas).difficultyLevel
    decreases |deltas|
  {
    if deltas != [] {
      RunIsMonotone(DirectorTick(d, deltas[0]).director, deltas[1..]);
    }
  }
}

=== FILE: entities.dfy ===
/**
 * The entity records of the game and their constructors: character profiles,
 * companions, projectiles, enemy ships and visual effects (explosions, hit
 * sparks, switch flashes). Every record has all of its fields; the optional
 * properties of the JavaScript objects (`damage ?? 1`, `health ?? 2`,
 * `hitFlash || 0`) are always present in the game, so their fallbacks never apply.
 */
module Entities {
  import opened Geometry

  datatype Option<T> = None | Some(value: T)

  /** The zero or one elements an optional value contributes to a store. */
  function OptionSeq<T>(o: Option<T>): (s: seq<T>)
    ensures o.None? <==> s == []
    ensures o.Some? ==> s == [o.value]
  {
    match o
    case None => []
    case Some(v) => [v]
  }

  /** A random draw of Math.random(): a real in [0, 1). */
  predicate UnitRoll(r: real) { 0.0 <= r < 1.0 }

  /** A strictly positive duration, so that `life / duration` is defined. */
  type PosReal = d: real | d > 0.0 witness 1.0

  // ---------------------------------------------------------------- characters

  datatype CharacterKey = Adrielle | Luca

  datatype Character = Character(
    name: string,
    speed: real,
    jumpStrength: real,
    projectileSpeed: real,
    fireCooldown: real,
    projectileColor: string,
    projectileSize: real,
    damageTaken: real)

  /** The fastest character's speed: a bound on the player's horizontal speed. */
  const MaxCharacterSpeed: real := 320.0

  /** The `characters` table. */
  function Profile(k: CharacterKey): (c: Character)
    ensures 0.0 < c.speed <= MaxCharacterSpeed
    ensures c.fireCooldown > 0.0 && c.projectileSpeed > 0.0 && c.projectileSize > 0.0
    ensures c.jumpStrength < 0.0
    ensures 0.0 < c.damageTaken <= 1.0
  {
    match k
    case Adrielle => Character("Adrielle", 240.0, -560.0, 560.0, 0.35, "#8ce0ff", 10.0, 0.75)
    case Luca => Character("Luca", 320.0, -600.0, 660.0, 0.28, "#ffd166", 12.0, 1.0)
  }

  /** switchCharacter's choice of the next character. */
  function Switched(k: CharacterKey): (r: CharacterKey)
    ensures r != k
  {
    if k == Adrielle then Luca else Adrielle
  }

  /** Switching twice restores the original character. */
  lemma SwitchedTwice(k: CharacterKey)
    ensures Switched(Switched(k)) == k
  {
  }

  // ---------------------------------------------------------------- companions

  datatype AnimalKey = Cat | Dog

  /** The constant part of an entry of `animals`. */
  datatype Companion = Companion(
    key: AnimalKey,
    name: string,
    width: real,
    height: real,
    offsetX: real,
    projectileColor: string,
    projectileTrail: string,
    projectileSize: real,
    projectileSpeed: real,
    fireCooldown: real)

  const CatSpec: Companion :=
    Companion(Cat, "Nuvem", 72.0, 78.0, -120.0, "#ff8de0", "rgba(255, 141, 224, 0.45)", 9.0, 540.0, 1.45)

  const DogSpec: Companion :=
    Companion(Dog, "Sol", 76.0, 80.0, 120.0, "#ffd480", "rgba(255, 212, 128, 0.45)", 11.0, 520.0, 1.65)

  /** An entry of `animals`: its constants and the fields the game updates. */
  datatype Animal = Animal(spec: Companion, x: real, y: real, cooldownTimer: real)

  function AnimalBox(a: Animal): Rect
  {
    Rect(a.x, a.y, a.spec.width, a.spec.height)
  }

  /** The hitboxes of a list of companions, in the same order. */
  function AnimalBoxes(pack: seq<Animal>): (r: seq<Rect>)
    ensures |r| == |pack|
    ensures forall k :: 0 <= k < |pack| ==> r[k] == AnimalBox(pack[k])
  {
    seq(|pack|, k requires 0 <= k < |pack| => AnimalBox(pack[k]))
  }

  // ---------------------------------------------------------------- projectiles

  datatype Owner = ByPlayer | ByAnimal(key: AnimalKey)

  /** `trail` is "" for the player's projectiles, which have none. */
  datatype Projectile = Projectile(
    x: real, y: real, radius: real,
    vx: real, vy: real,
    color: string, trail: string,
    owner: Owner, damage: real)

  // ---------------------------------------------------------------- enemies

  datatype EnemyKind = Straight | Zigzag

  datatype Enemy = Enemy(
    x: real, y: real, width: real, height: real,
    vx: real, vy: real,
    kind: EnemyKind, zigzagTimer: real,
    health: real, hitFlash: real)

  function EnemyBox(e: Enemy): Rect
  {
    Rect(e.x, e.y, e.width, e.height)
  }

  function CenterX(e: Enemy): real { e.x + e.width / 2.0 }

  function CenterY(e: Enemy): real { e.y + e.height / 2.0 }

  /** The three Math.random() draws of spawnEnemy, in call order. */
  datatype SpawnRoll = SpawnRoll(kind: real, x: real, direction: real)

  predicate ValidSpawnRoll(r: SpawnRoll)
  {
    UnitRoll(r.kind) && UnitRoll(r.x) && UnitRoll(r.direction)
  }

  /**
   * spawnEnemy: a new ship above the top edge, horizontally inside a 40-unit
   * margin, falling faster as the difficulty level grows.
   */
  function SpawnEnemy(difficultyLevel: real, canvasWidth: real, roll: SpawnRoll): (e: Enemy)
    requires ValidSpawnRoll(roll)
    ensures canvasWidth >= 80.0 ==> 40.0 <= e.x <= canvasWidth - 40.0
    ensures e.y == -100.0 && e.width == 70.0 && e.height == 90.0
    ensures e.health == 2.0 && e.hitFlash == 0.0 && e.zigzagTimer == 0.0
    ensures e.vy == 70.0 + difficultyLevel * 15.0
    ensures difficultyLevel >= 0.0 ==> e.vy >= 70.0
    ensures e.kind == Zigzag <==> roll.kind >= 0.5
    ensures e.kind == Straight ==> e.vx == 0.0
    ensures e.kind == Zigzag ==> Abs(e.vx) == 80.0
  {
    var kind := if roll.kind < 0.5 then Straight else Zigzag;
    var baseSpeed := 70.0 + difficultyLevel * 15.0;
    var x := roll.x * (canvasWidth - 80.0) + 40.0;
    var vx := if kind == Zigzag then (if roll.direction < 0.5 then -80.0 else 80.0) else 0.0;
    MulNonNeg(roll.x, canvasWidth - 80.0);
    MulNonNeg(1.0 - roll.x, canvasWidth - 80.0);
    Enemy(x, -100.0, 70.0, 90.0, vx, baseSpeed, kind, 0.0, 2.0, 0.0)
  }

  /** Ships spawned at a higher difficulty level fall at least as fast, whatever the draws. */
  lemma SpawnSpeedGrows(level1: real, level2: real, canvasWidth: real, roll1: SpawnRoll, roll2: SpawnRoll)
    requires ValidSpawnRoll(roll1) && ValidSpawnRoll(roll2) && level1 <= level2
    ensures SpawnEnemy(level1, canvasWidth, roll1).vy <= SpawnEnemy(level2, canvasWidth, roll2).vy
  {
  }

  // ---------------------------------------------------------------- effects

  datatype Effect = Effect(
    x: real, y: real,
    radius: real, maxRadius: real,
    alpha: real, color: string,
    life: real, duration: PosReal)

  /** An effect whose life has started and whose maximum radius is non-negative. */
  predicate Started(fx: Effect)
  {
    0.0 <= fx.life && 0.0 <= fx.maxRadius
  }

  predicate AllStarted(fxs: seq<Effect>)
  {
    forall k :: 0 <= k < |fxs| ==> Started(fxs[k])
  }

  /** createExplosion: the large effect of a destroyed ship. */
  function Explosion(x: real, y: real): (fx: Effect)
    ensures fx.x == x && fx.y == y && fx.life == 0.0 && fx.maxRadius == 120.0
    ensures fx.radius == 0.0 && fx.alpha == 0.8 && fx.color == "#ffdd66" && fx.duration == 0.45
  {
    Effect(x, y, 0.0, 120.0, 0.8, "#ffdd66", 0.0, 0.45)
  }

  /** createHitSpark: the small effect of a hit that does not destroy the ship. */
  function HitSpark(x: real, y: real, color: string): (fx: Effect)
    ensures fx.x == x && fx.y == y && fx.color == color && fx.life == 0.0 && fx.maxRadius == 60.0
    ensures fx.radius == 0.0 && fx.alpha == 0.6 && fx.duration == 0.25
  {
    Effect(x, y, 0.0, 60.0, 0.6, color, 0.0, 0.25)
  }

  /** createSwitchFlash: the flash drawn at the player's centre on a character switch. */
  function SwitchFlash(x: real, y: real, color: string): (fx: Effect)
    ensures fx.x == x && fx.y == y && fx.color == color && fx.life == 0.0 && fx.maxRadius == 100.0
    ensures fx.radius == 10.0 && fx.alpha == 0.6 && fx.duration == 0.25
  {
    Effect(x, y, 10.0, 100.0, 0.6, color, 0.0, 0.25)
  }
}

=== FILE: game.dfy ===
/**
 * The game state and its per-frame driver. The globals of the game become the
 * fields of class Game, the `player` object a class Player whose fields are
 * updated in place, and the `projectiles`, `enemies`, `explosions` and
 * `animals` arrays sequence fields that the methods reassign (a splice becomes
 * a concatenation of the two slices around the removed index).
 *
 * Every method is specified by the functions of the other modules applied to
 * the state before the call; the properties of those functions are proved
 * there. Math.random draws, Math.sin and Math.hypot come in as parameters.
 */
module Game {
  import opened Geometry
  import opened Entities
  import opened Stores
  import opened Director
  import opened Ledger
  import opened Collisions
  import opened Companions
  import opened Input
  import opened PlayerPhysics

  /** The `player` object. */
  class Player {
    var x: real
    var y: real
    var vx: real
    var vy: real
    var onGround: bool
    var fireCooldown: real
    const width: real := PlayerWidth
    const height: real := PlayerHeight

    constructor (x: real, y: real)
      ensures Snapshot() == Body(x, y, 0.0, 0.0, false, 0.0)
    {
      this.x := x;
      this.y := y;
      vx := 0.0;
      vy := 0.0;
      onGround := false;
      fireCooldown := 0.0;
    }

    /** The player part of resetGame: at x, standing on the ground line, at rest and ready to fire. */
    method Stand(x: real, groundY: real)
      modifies this
      ensures Snapshot() == Body(x, groundY - PlayerHeight, 0.0, 0.0, true, 0.0)
    {
      this.x := x;
      y := groundY - height;
      vx := 0.0;
      vy := 0.0;
      onGround := true;
      fireCooldown := 0.0;
    }

    function Snapshot(): Body
      reads this
    {
      Body(x, y, vx, vy, onGround, fireCooldown)
    }

    function Box(): Rect
      reads this
    {
      Rect(x, y, width, height)
    }
  }

  /** What one animation frame draws from outside the simulation. */
  datatype Frame = Frame(
    spawn: SpawnRoll,                  // the Math.random draws of spawnEnemy
    companionRolls: seq<real>,         // the Math.random draw of each companion's cooldown reset
    sin: real -> real,                 // Math.sin
    hypot: (real, real) -> real)       // Math.hypot

  predicate FrameValid(f: Frame)
  {
    ValidSpawnRoll(f.spawn) && |f.companionRolls| == 2 && ValidRolls(f.companionRolls)
  }

  class Game {
    const canvasWidth: real
    const canvasHeight: real
    const player: Player

    var keys: Keys
    var gameRunning: bool
    var spawnTimer: real
    var spawnInterval: real
    var difficultyLevel: real
    var score: int
    var health: real
    var bestScore: int
    var projectiles: seq<Projectile>
    var enemies: seq<Enemy>
    var explosions: seq<Effect>
    var animals: seq<Animal>
    var currentCharacter: CharacterKey
    var supportAutoFire: bool
    var lastShiftTap: real

    function GroundY(): real
    {
      canvasHeight - 80.0
    }

    function DirectorState(): Director
      reads this
    {
      Director(spawnTimer, spawnInterval, difficultyLevel)
    }

    function RunLedger(): Ledger
      reads this
    {
      Ledger(health, gameRunning)
    }

    function HitRecord(): HitState
      reads this
    {
      HitState(enemies, explosions, score, bestScore)
    }

    function ShiftRecord(): ShiftState
      reads this
    {
      ShiftState(keys.shift, supportAutoFire, lastShiftTap)
    }

    function Character(): Character
      reads this
    {
      Profile(currentCharacter)
    }

    /** What resetGame needs of the state it starts from. */
    ghost predicate Shaped()
      reads this
    {
      canvasWidth >= MinCanvasWidth && |animals| == 2 &&
      animals[0].spec == CatSpec && animals[1].spec == DogSpec && bestScore >= 0
    }

    /** The invariant every handler and every frame keeps. */
    ghost predicate Valid()
      reads this, player
    {
      canvasWidth >= MinCanvasWidth &&
      LedgerValid(RunLedger()) &&
      0 <= score <= bestScore &&
      DirectorValid(DirectorState()) &&
      CompanionsValid(animals) &&
      BodyValid(player.Snapshot(), canvasWidth, GroundY()) &&
      AllStarted(explosions)
    }

    /**
     * The state after the script has loaded: the initial globals followed by
     * resetGame(false). The best score starts at zero because the stored best
     * score is never loaded. The companions' positions before the first
     * positionAnimals are undefined in the game; here they start at the origin
     * and are overwritten by the reset.
     */
    constructor (canvasWidth: real, canvasHeight: real, rolls: seq<real>)
      requires canvasWidth >= MinCanvasWidth && |rolls| == 2 && ValidRolls(rolls)
      ensures Valid() && !gameRunning
      ensures this.canvasWidth == canvasWidth && this.canvasHeight == canvasHeight
      ensures score == 0 && bestScore == 0 && health == MaxLives
      ensures DirectorState() == Director(0.0, InitialSpawnInterval, 0.0)
      ensures projectiles == [] && enemies == [] && explosions == []
      ensures currentCharacter == Adrielle && keys == NoKeys && !supportAutoFire && lastShiftTap == 0.0
    {
      this.canvasWidth := canvasWidth;
      this.canvasHeight := canvasHeight;
      player := new Player(canvasWidth / 2.0 - 36.0, canvasHeight - 80.0 - 120.0);
      keys := NoKeys;
      gameRunning := false;
      spawnTimer := 0.0;
      spawnInterval := InitialSpawnInterval;
      difficultyLevel := 0.0;
      score := 0;
      health := MaxLives;
      bestScore := 0;
      projectiles := [];
      enemies := [];
      explosions := [];
      animals := [Animal(CatSpec, 0.0, 0.0, 0.0), Animal(DogSpec, 0.0, 0.0, 0.0)];
      currentCharacter := Adrielle;
      supportAutoFire := false;
      lastShiftTap := 0.0;
      new;
      ResetGame(false, rolls);
    }

    /** positionAnimals: every companion placed next to the player with a fresh random cooldown. */
    method PositionAnimals(rolls: seq<real>)
      requires |rolls| == |animals| && ValidRolls(rolls)
      modifies this`animals
      ensures animals == PlaceAll(old(animals), player.x, player.width, GroundY(), rolls)
    {
      for i := 0 to |animals|
        invariant |animals| == |old(animals)|
        invariant forall k :: 0 <= k < i ==> animals[k] == Place(old(animals)[k], player.x, player.width, GroundY(), rolls[k])
        invariant forall k :: i <= k < |animals| ==> animals[k] == old(animals)[k]
      {
        var animal := animals[i];
        animal := animal.(x := player.x + player.width / 2.0 + animal.spec.offsetX - animal.spec.width / 2.0);
        animal := animal.(y := GroundY() - animal.spec.height);
        animal := animal.(cooldownTimer := animal.spec.fireCooldown * (0.4 + rolls[i] * 0.8));
        animals := animals[i := animal];
      }
    }

    /**
     * The state part of resetGame: a fresh run with full health, empty stores,
     * the first character on the ground in the middle, and the companions
     * placed beside it. The keys, the auto-fire mode, the last Shift tap and
     * the best score are outside its frame, so they are kept.
     */
    method ResetGame(startImmediately: bool, rolls: seq<real>)
      requires Shaped() && |rolls| == 2 && ValidRolls(rolls)
      modifies this`score, this`health, this`spawnInterval, this`difficultyLevel, this`spawnTimer, this`projectiles
      modifies this`enemies, this`explosions, this`currentCharacter, this`gameRunning, this`animals, player
      ensures Valid()
      ensures gameRunning == startImmediately
      ensures score == 0 && health == MaxLives
      ensures DirectorState() == Director(0.0, InitialSpawnInterval, 0.0)
      ensures projectiles == [] && enemies == [] && explosions == [] && currentCharacter == Adrielle
      ensures player.Snapshot() == Body(canvasWidth / 2.0 - PlayerWidth / 2.0, GroundY() - PlayerHeight, 0.0, 0.0, true, 0.0)
      ensures animals == PlaceAll(old(animals), player.x, PlayerWidth, GroundY(), rolls)
    {
      // positionAnimals reads only the player and the ground line, so running
      // it before the other globals are reset has the same effect.
      player.Stand(canvasWidth / 2.0 - player.width / 2.0, GroundY());
      PositionAnimals(rolls);
      score := 0;
      health := MaxLives;
      spawnInterval := InitialSpawnInterval;
      difficultyLevel := 0.0;
      spawnTimer := 0.0;
      projectiles := [];
      enemies := [];
      explosions := [];
      currentCharacter := Adrielle;
      gameRunning := startImmediately;
    }

    /** updateDifficulty: the director ticks, and an enemy spawns (at the level before the tick) when it says so. */
    method UpdateDifficulty(delta: real, roll: SpawnRoll)
      requires delta >= 0.0 && ValidSpawnRoll(roll)
      modifies this`spawnTimer, this`spawnInterval, this`difficultyLevel, this`enemies
      ensures var t := DirectorTick(old(DirectorState()), delta);
              && DirectorState() == t.director
              && enemies == old(enemies) + (if t.spawned then [SpawnEnemy(old(difficultyLevel), canvasWidth, roll)] else [])
    {
      spawnTimer := spawnTimer - delta;
      if spawnTimer <= 0.0 {
        enemies := enemies + [SpawnEnemy(difficultyLevel, canvasWidth, roll)];
        spawnInterval := Max(MinSpawnInterval, spawnInterval - 0.05 - difficultyLevel * 0.005);
        spawnTimer := spawnInterval;
      }
      difficultyLevel := Min(MaxDifficulty, difficultyLevel + delta * 0.02);
    }

    /** shootProjectile: fires only when the cooldown has run out, and re-arms it. */
    method ShootProjectile()
      modifies player`fireCooldown, this`projectiles
      ensures old(player.fireCooldown) > 0.0 ==> player.fireCooldown == old(player.fireCooldown) && projectiles == old(projectiles)
      ensures old(player.fireCooldown) <= 0.0 ==>
                && projectiles == old(projectiles) + [PlayerShot(old(player.Snapshot()), Character())]
                && player.fireCooldown == Character().fireCooldown
    {
      var character := Character();
      if player.fireCooldown > 0.0 {
        return;
      }
      var projectile := Projectile(player.x + player.width / 2.0, player.y + 30.0, character.projectileSize,
                                   0.0, -character.projectileSpeed, character.projectileColor, "", ByPlayer, 2.0);
      projectiles := projectiles + [projectile];
      player.fireCooldown := character.fireCooldown;
    }

    /** updatePlayer: the player's new state and the shot it fired are those of PlayerStep. */
    method UpdatePlayer(delta: real)
      requires delta >= 0.0
      modifies player, this`projectiles
      ensures var f := PlayerStep(old(player.Snapshot()), keys, Character(), delta, canvasWidth, GroundY());
              player.Snapshot() == f.body && projectiles == old(projectiles) + OptionSeq(f.shot)
    {
      ghost var before := player.Snapshot();
      var character := Character();
      player.vx := Steer(player.vx, keys, character, delta);

      player.x := player.x + Travel(player.vx, delta);
      player.x := Max(EdgeInset, Min(canvasWidth - player.width - EdgeInset, player.x));

      if keys.up && player.onGround {
        player.vy := character.jumpStrength;
        player.onGround := false;
      }

      player.vy := player.vy + Gravity * delta;
      player.y := player.y + Travel(player.vy, delta);

      if player.y + player.height >= GroundY() {
        player.y := GroundY() - player.height;
        player.vy := 0.0;
        player.onGround := true;
      }
      assert player.Snapshot() == Move(before, keys, character, delta, canvasWidth, GroundY());

      if keys.shoot {
        ShootProjectile();
      }

      if player.fireCooldown > 0.0 {
        player.fireCooldown := Max(0.0, player.fireCooldown - delta);
      }
    }

    /** shootAnimalProjectile for companion i: the outcome of Fire. */
    method ShootAnimalProjectile(i: nat, roll: real, hypot: (real, real) -> real) returns (fired: bool)
      requires i < |animals|
      modifies this`animals, this`projectiles
      ensures var f := Fire(old(animals[i]), enemies, roll, hypot);
              && fired == f.shot.Some?
              && animals == old(animals)[i := f.animal]
              && projectiles == old(projectiles) + OptionSeq(f.shot)
    {
      var animal := animals[i];
      if animal.cooldownTimer > 0.0 {
        return false;
      }
      if |enemies| == 0 {
        return false;
      }
      var target := enemies[TopmostIndex(enemies)];
      var shot := AimedShot(animal, target, hypot);
      projectiles := projectiles + [shot];
      var rearmed := animal.(cooldownTimer := animal.spec.fireCooldown * (0.8 + roll * 0.4));
      assert Fire(animal, enemies, roll, hypot) == Firing(rearmed, Some(shot));
      animals := animals[i := rearmed];
      return true;
    }

    /**
     * One turn of fireSupportAnimals: companion i tries to fire, and the volley
     * of the first i companions becomes the volley of the first i + 1.
     */
    method FireTurn(i: nat, rolls: seq<real>, hypot: (real, real) -> real, ghost pack: seq<Animal>, ghost shots: seq<Projectile>)
      returns (fired: bool)
      requires |rolls| == |pack| && i < |pack|
      requires animals == FireAll(pack[..i], enemies, rolls[..i], hypot).animals + pack[i..]
      requires projectiles == shots + FireAll(pack[..i], enemies, rolls[..i], hypot).shots
      modifies this`animals, this`projectiles
      ensures animals == FireAll(pack[..i + 1], enemies, rolls[..i + 1], hypot).animals + pack[i + 1..]
      ensures projectiles == shots + FireAll(pack[..i + 1], enemies, rolls[..i + 1], hypot).shots
      ensures fired == Fire(pack[i], enemies, rolls[i], hypot).shot.Some?
    {
      FireAllStep(pack, enemies, rolls, hypot, i);
      VolleyTurn(animals, shots, pack, i, FireAll(pack[..i], enemies, rolls[..i], hypot), Fire(pack[i], enemies, rolls[i], hypot));
      fired := ShootAnimalProjectile(i, rolls[i], hypot);
    }

    /** fireSupportAnimals: every companion tries to fire in turn; true iff one did. */
    method FireSupportAnimals(rolls: seq<real>, hypot: (real, real) -> real) returns (fired: bool)
      requires |rolls| == |animals|
      modifies this`animals, this`projectiles
      ensures var v := FireAll(old(animals), enemies, rolls, hypot);
              && animals == v.animals
              && projectiles == old(projectiles) + v.shots
              && fired == (|v.shots| > 0)
    {
      ghost var pack := animals;
      ghost var shots := projectiles;
      fired := false;
      for i := 0 to |rolls|
        invariant animals == FireAll(pack[..i], enemies, rolls[..i], hypot).animals + pack[i..]
        invariant projectiles == shots + FireAll(pack[..i], enemies, rolls[..i], hypot).shots
        invariant fired == (|FireAll(pack[..i], enemies, rolls[..i], hypot).shots| > 0)
      {
        FireAllStep(pack, enemies, rolls, hypot, i);
        var shot := FireTurn(i, rolls, hypot, pack, shots);
        if shot {
          fired := true;
        }
      }
      assert pack[..|rolls|] == pack && rolls[..|rolls|] == rolls;
    }

    /**
     * The callback updateAnimals runs for companion i: follow the player,
     * count the cooldown down, and fire when auto-fire is on.
     */
    method TickAnimal(i: nat, delta: real, roll: real, hypot: (real, real) -> real)
      requires i < |animals| && delta >= 0.0
      modifies this`animals, this`projectiles
      ensures var f := AutoTick(old(animals[i]), player.x, player.width, GroundY(), delta, supportAutoFire, enemies, roll, hypot);
              animals == old(animals)[i := f.animal] && projectiles == old(projectiles) + OptionSeq(f.shot)
    {
      var animal := Follow(animals[i], player.x, player.width, GroundY(), delta);
      animals := animals[i := animal];
      if supportAutoFire && |enemies| > 0 && animal.cooldownTimer <= 0.0 {
        var fired := ShootAnimalProjectile(i, roll, hypot);
      }
    }

    /**
     * One turn of updateAnimals: companion i's callback runs, and the volley of
     * the first i companions becomes the volley of the first i + 1.
     */
    method TickTurn(i: nat, delta: real, rolls: seq<real>, hypot: (real, real) -> real, ghost pack: seq<Animal>, ghost shots: seq<Projectile>)
      requires delta >= 0.0 && |rolls| == |pack| && i < |pack|
      requires animals == AutoTickAll(pack[..i], player.x, player.width, GroundY(), delta, supportAutoFire, enemies, rolls[..i], hypot).animals + pack[i..]
      requires projectiles == shots + AutoTickAll(pack[..i], player.x, player.width, GroundY(), delta, supportAutoFire, enemies, rolls[..i], hypot).shots
      modifies this`animals, this`projectiles
      ensures animals == AutoTickAll(pack[..i + 1], player.x, player.width, GroundY(), delta, supportAutoFire, enemies, rolls[..i + 1], hypot).animals + pack[i + 1..]
      ensures projectiles == shots + AutoTickAll(pack[..i + 1], player.x, player.width, GroundY(), delta, supportAutoFire, enemies, rolls[..i + 1], hypot).shots
    {
      AutoTickAllStep(pack, player.x, player.width, GroundY(), delta, supportAutoFire, enemies, rolls, hypot, i);
      VolleyTurn(animals, shots, pack, i, AutoTickAll(pack[..i], player.x, player.width, GroundY(), delta, supportAutoFire, enemies, rolls[..i], hypot),
                 AutoTick(pack[i], player.x, player.width, GroundY(), delta, supportAutoFire, enemies, rolls[i], hypot));
      TickAnimal(i, delta, rolls[i], hypot);
    }

    /** updateAnimals: every companion follows, counts down and fires automatically when enabled. */
    method UpdateAnimals(delta: real, rolls: seq<real>, hypot: (real, real) -> real)
      requires delta >= 0.0 && |rolls| == |animals|
      modifies this`animals, this`projectiles
      ensures var v := AutoTickAll(old(animals), player.x, player.width, GroundY(), delta, supportAutoFire, enemies, rolls, hypot);
              animals == v.animals && projectiles == old(projectiles) + v.shots
    {
      ghost var pack := animals;
      ghost var shots := projectiles;
      for i := 0 to |rolls|
        invariant animals == AutoTickAll(pack[..i], player.x, player.width, GroundY(), delta, supportAutoFire, enemies, rolls[..i], hypot).animals + pack[i..]
        invariant projectiles == shots + AutoTickAll(pack[..i], player.x, player.width, GroundY(), delta, supportAutoFire, enemies, rolls[..i], hypot).shots
      {
        TickTurn(i, delta, rolls, hypot, pack, shots);
      }
      assert pack[..|rolls|] == pack && rolls[..|rolls|] == rolls;
    }

    /** updateProjectiles: a reverse scan that moves each projectile and splices out those out of bounds. */
    method UpdateProjectiles(delta: real)
      modifies this`projectiles
      ensures projectiles == AdvanceProjectiles(old(projectiles), delta, canvasWidth, canvasHeight)
    {
      ghost var ps := projectiles;
      var i := |projectiles| - 1;
      assert ps[..i + 1] == ps && projectiles[i + 1..] == [];
      while i >= 0
        invariant -1 <= i < |ps|
        invariant i + 1 <= |projectiles| && projectiles[..i + 1] == ps[..i + 1]
        invariant AdvanceProjectiles(ps, delta, canvasWidth, canvasHeight) ==
                  AdvanceProjectiles(ps[..i + 1], delta, canvasWidth, canvasHeight) + projectiles[i + 1..]
      {
        assert projectiles[i] == projectiles[..i + 1][i] == ps[i];
        var projectile := MoveProjectile(projectiles[i], delta);
        var tail := projectiles[i + 1..];
        AdvanceProjectilesStep(ps, i, delta, canvasWidth, canvasHeight);
        ghost var kept := if OutOfBounds(projectile, canvasWidth, canvasHeight) then [] else [projectile];
        SpliceStep(AdvanceProjectiles(ps, delta, canvasWidth, canvasHeight), AdvanceProjectiles(ps[..i + 1], delta, canvasWidth, canvasHeight),
                   AdvanceProjectiles(ps[..i], delta, canvasWidth, canvasHeight), kept, projectiles, i);
        if OutOfBounds(projectile, canvasWidth, canvasHeight) {
          projectiles := projectiles[..i] + tail;
        } else {
          projectiles := projectiles[..i] + [projectile] + tail;
        }
        i := i - 1;
      }
    }

    /** updateEnemies: a reverse scan that moves each enemy and splices out those below the field. */
    method UpdateEnemies(delta: real, sin: real -> real)
      modifies this`enemies
      ensures enemies == AdvanceEnemies(old(enemies), delta, canvasWidth, canvasHeight, sin)
    {
      ghost var es := enemies;
      var i := |enemies| - 1;
      assert es[..i + 1] == es && enemies[i + 1..] == [];
      while i >= 0
        invariant -1 <= i < |es|
        invariant i + 1 <= |enemies| && enemies[..i + 1] == es[..i + 1]
        invariant AdvanceEnemies(es, delta, canvasWidth, canvasHeight, sin) ==
                  AdvanceEnemies(es[..i + 1], delta, canvasWidth, canvasHeight, sin) + enemies[i + 1..]
      {
        assert enemies[i] == enemies[..i + 1][i] == es[i];
        var enemy := MoveEnemy(enemies[i], delta, canvasWidth, sin);
        var tail := enemies[i + 1..];
        AdvanceEnemiesStep(es, i, delta, canvasWidth, canvasHeight, sin);
        ghost var kept := if BelowField(enemy, canvasHeight) then [] else [enemy];
        SpliceStep(AdvanceEnemies(es, delta, canvasWidth, canvasHeight, sin), AdvanceEnemies(es[..i + 1], delta, canvasWidth, canvasHeight, sin),
                   AdvanceEnemies(es[..i], delta, canvasWidth, canvasHeight, sin), kept, enemies, i);
        if BelowField(enemy, canvasHeight) {
          enemies := enemies[..i] + tail;
        } else {
          enemies := enemies[..i] + [enemy] + tail;
        }
        i := i - 1;
      }
    }

    /** updateExplosions: a reverse scan that ages each effect and splices out the expired ones. */
    method UpdateExplosions(delta: real)
      modifies this`explosions
      ensures explosions == AdvanceEffects(old(explosions), delta)
    {
      ghost var fxs := explosions;
      ghost var goal := AdvanceEffects(fxs, delta);
      var i := |explosions| - 1;
      assert fxs[..i + 1] == fxs && explosions[i + 1..] == [];
      while i >= 0
        invariant -1 <= i < |fxs|
        invariant i + 1 <= |explosions| && explosions[..i + 1] == fxs[..i + 1]
        invariant goal == AdvanceEffects(fxs[..i + 1], delta) + explosions[i + 1..]
      {
        assert explosions[i] == explosions[..i + 1][i] == fxs[i];
        var explosion := AdvanceEffect(explosions[i], delta);
        var tail := explosions[i + 1..];
        AdvanceEffectsStep(fxs, i, delta);
        ghost var kept := if Expired(explosion) then [] else [explosion];
        SpliceStep(goal, AdvanceEffects(fxs[..i + 1], delta), AdvanceEffects(fxs[..i], delta), kept, explosions, i);
        if Expired(explosion) {
          explosions := explosions[..i] + tail;
        } else {
          explosions := explosions[..i] + [explosion] + tail;
        }
        i := i - 1;
      }
    }

    /** applyDamage. */
    method ApplyDamage(amount: real)
      modifies this`health, this`gameRunning
      ensures RunLedger() == Damage(old(RunLedger()), amount)
    {
      health := Max(0.0, health - amount);
      if health <= 0.0 {
        gameRunning := false;
      }
    }

    /** registerBestScore (without the display and the storage). */
    method RegisterBestScore()
      modifies this`bestScore
      ensures bestScore == BestScore(score, old(bestScore))
    {
      if score > bestScore {
        bestScore := score;
      }
    }

    /**
     * One iteration of the outer loop of checkCollisions' first pass: projectile
     * i is tested against the enemies from the last down and strikes the first
     * one it overlaps, which also removes the projectile.
     */
    method ResolveProjectile(i: nat) returns (removedProjectile: bool)
      requires i < |projectiles|
      modifies this`projectiles, this`enemies, this`explosions, this`score, this`bestScore
      ensures var r := Resolve(old(projectiles[i]), old(HitRecord()));
              && removedProjectile == r.hit
              && HitRecord() == r.state
              && projectiles == old(projectiles[..i]) + (if r.hit then [] else [old(projectiles[i])]) + old(projectiles[i + 1..])
    {
      var projectile := projectiles[i];
      ghost var before := HitRecord();
      removedProjectile := false;
      var j := |enemies| - 1;
      while j >= 0
        invariant -1 <= j < |enemies|
        invariant HitRecord() == before && projectiles == old(projectiles) && !removedProjectile
        invariant forall k :: j < k < |enemies| ==> !Hits(projectile, enemies[k])
      {
        if Hits(projectile, enemies[j]) {
          assert TargetOf(projectile, enemies) == Struck(j);
          projectiles := projectiles[..i] + projectiles[i + 1..];
          removedProjectile := true;
          var enemy := enemies[j];
          enemy := enemy.(health := enemy.health - projectile.damage, hitFlash := HitFlashTime);
          if enemy.health <= 0.0 {
            enemies := enemies[..j] + enemies[j + 1..];
            score := score + KillReward;
            RegisterBestScore();
            explosions := explosions + [Explosion(CenterX(enemy), CenterY(enemy))];
          } else {
            enemies := enemies[j := enemy];
            explosions := explosions + [HitSpark(CenterX(enemy), CenterY(enemy), SparkColor(projectile))];
          }
          break;
        }
        j := j - 1;
      }
    }

    /** The first pass of checkCollisions: every projectile, from the last down. */
    method ResolveProjectileHits()
      modifies this`projectiles, this`enemies, this`explosions, this`score, this`bestScore
      ensures var r := ProjectilePass(old(projectiles), old(HitRecord()));
              projectiles == r.kept && HitRecord() == r.state
    {
      ghost var ps := projectiles;
      ghost var goal := ProjectilePass(ps, HitRecord());
      var i := |projectiles| - 1;
      assert ps[..i + 1] == ps && projectiles[i + 1..] == [];
      while i >= 0
        invariant -1 <= i < |ps|
        invariant i + 1 <= |projectiles| && projectiles[..i + 1] == ps[..i + 1]
        invariant goal.state == ProjectilePass(ps[..i + 1], HitRecord()).state
        invariant goal.kept == ProjectilePass(ps[..i + 1], HitRecord()).kept + projectiles[i + 1..]
      {
        assert projectiles[i] == projectiles[..i + 1][i] == ps[i];
        assert projectiles[..i] == projectiles[..i + 1][..i] == ps[..i];
        ghost var res := Resolve(ps[i], HitRecord());
        ghost var rest := ProjectilePass(ps[..i], res.state);
        ghost var kept := if res.hit then [] else [ps[i]];
        ProjectilePassStep(ps, i, HitRecord());
        SpliceStep(goal.kept, ProjectilePass(ps[..i + 1], HitRecord()).kept, rest.kept, kept, projectiles, i);
        var removed := ResolveProjectile(i);
        i := i - 1;
      }
    }

    /** The inner loop of the second pass: does the enemy overlap some companion? */
    method TouchesAnimal(enemy: Enemy) returns (hitAnimal: bool)
      ensures hitAnimal == TouchesCompanion(enemy, AnimalBoxes(animals))
    {
      hitAnimal := false;
      for k := 0 to |animals|
        invariant forall m :: 0 <= m < k ==> !RectsIntersect(AnimalBox(animals[m]), EnemyBox(enemy))
      {
        var animal := animals[k];
        var animalHitbox := Rect(animal.x, animal.y, animal.spec.width, animal.spec.height);
        if RectsIntersect(animalHitbox, EnemyBox(enemy)) {
          hitAnimal := true;
          assert AnimalBoxes(animals)[k] == animalHitbox;
          break;
        }
      }
      if !hitAnimal {
        assert forall m :: 0 <= m < |animals| ==> AnimalBoxes(animals)[m] == AnimalBox(animals[m]);
      }
    }

    /**
     * Where the second pass of checkCollisions stands before enemy i: the enemies
     * from i + 1 on are done, and the pass over the first i + 1 from the current
     * effects and ledger, followed by the enemies already kept, is the whole pass.
     */
    ghost predicate ContactScan(i: int, es: seq<Enemy>, playerHitbox: Rect, boxes: seq<Rect>, damage: real, goal: ContactOut)
      reads this
    {
      -1 <= i < |es| && i + 1 <= |enemies| && enemies[..i + 1] == es[..i + 1] &&
      var r := ContactPass(es[..i + 1], explosions, RunLedger(), playerHitbox, boxes, damage);
      goal == ContactOut(r.kept + enemies[i + 1..], r.effects, r.ledger)
    }

    /** An enemy of the second pass of checkCollisions that touched something: removed, with damage and an explosion. */
    method Crash(i: nat, damage: real)
      requires i < |enemies|
      modifies this`enemies, this`explosions, this`health, this`gameRunning
      ensures var e := old(enemies)[i];
              && enemies == old(enemies)[..i] + old(enemies)[i + 1..]
              && explosions == old(explosions) + [Explosion(CenterX(e), CenterY(e))]
              && RunLedger() == Damage(old(RunLedger()), damage)
    {
      var enemy := enemies[i];
      enemies := enemies[..i] + enemies[i + 1..];
      ApplyDamage(damage);
      explosions := explosions + [Explosion(CenterX(enemy), CenterY(enemy))];
    }

    /** One iteration of the second pass of checkCollisions, for enemy i. */
    method ContactTurn(i: nat, playerHitbox: Rect, damage: real, ghost es: seq<Enemy>, ghost boxes: seq<Rect>, ghost goal: ContactOut)
      requires ContactScan(i, es, playerHitbox, boxes, damage, goal) && boxes == AnimalBoxes(animals)
      modifies this`enemies, this`explosions, this`health, this`gameRunning
      ensures ContactScan(i - 1, es, playerHitbox, boxes, damage, goal)
    {
      var enemy := enemies[i];
      var tail := enemies[i + 1..];
      assert enemy == enemies[..i + 1][i] == es[i];
      assert enemies[..i] == enemies[..i + 1][..i] == es[..i];
      assert enemies[i..] == [enemy] + tail;
      assert (enemies[..i] + tail)[..i] == enemies[..i] && (enemies[..i] + tail)[i..] == tail;
      ContactPassStep(es, i, explosions, RunLedger(), playerHitbox, boxes, damage);

      if RectsIntersect(playerHitbox, EnemyBox(enemy)) {
        Crash(i, damage);
      } else {
        var hitAnimal := TouchesAnimal(enemy);
        if hitAnimal {
          assert Touches(enemy, playerHitbox, boxes);
          Crash(i, damage);
        } else {
          ghost var rest := ContactPass(es[..i], explosions, RunLedger(), playerHitbox, boxes, damage);
          assert rest.kept + [enemy] + tail == rest.kept + enemies[i..];
        }
      }
    }

    /**
     * The second pass of checkCollisions: every enemy, from the last down, that
     * overlaps the player's box or else a companion's box is removed, costs the
     * character's damageTaken and leaves an explosion.
     */
    method ResolveContacts()
      modifies this`enemies, this`explosions, this`health, this`gameRunning
      ensures var r := ContactPass(old(enemies), old(explosions), old(RunLedger()), player.Box(), AnimalBoxes(animals), Character().damageTaken);
              enemies == r.kept && explosions == r.effects && RunLedger() == r.ledger
    {
      var character := Character();
      var playerHitbox := Rect(player.x, player.y, player.width, player.height);
      ghost var es := enemies;
      ghost var boxes := AnimalBoxes(animals);
      ghost var goal := ContactPass(es, explosions, RunLedger(), playerHitbox, boxes, character.damageTaken);
      var i := |enemies| - 1;
      assert enemies[..i + 1] == es && enemies[i + 1..] == [] && goal.kept + [] == goal.kept;
      while i >= 0
        invariant ContactScan(i, es, playerHitbox, boxes, character.damageTaken, goal)
      {
        ContactTurn(i, playerHitbox, character.damageTaken, es, boxes, goal);
        i := i - 1;
      }
      assert es[..0] == [] && enemies[0..] == enemies;
    }

    /** Pass 1 of checkCollisions keeps the invariant: scores only grow. */
    method StrikePhase()
      requires Valid()
      modifies this`projectiles, this`enemies, this`explosions, this`score, this`bestScore
      ensures Valid()
      ensures var p := ProjectilePass(old(projectiles), old(HitRecord()));
              projectiles == p.kept && HitRecord() == p.state
      ensures score >= old(score) && bestScore >= old(bestScore)
    {
      ProjectilePassAccounting(projectiles, HitRecord());
      ProjectilePassEffectsStarted(projectiles, HitRecord());
      ResolveProjectileHits();
    }

    /** Pass 2 of checkCollisions keeps the invariant: health only falls. */
    method ContactPhase()
      requires Valid()
      modifies this`enemies, this`explosions, this`health, this`gameRunning
      ensures Valid()
      ensures var c := ContactPass(old(enemies), old(explosions), old(RunLedger()), player.Box(), AnimalBoxes(animals), Character().damageTaken);
              enemies == c.kept && explosions == c.effects && RunLedger() == c.ledger
      ensures health <= old(health)
    {
      ContactPassKeepsLedger(enemies, explosions, RunLedger(), player.Box(), AnimalBoxes(animals), Character().damageTaken);
      ContactPassEffectsStarted(enemies, explosions, RunLedger(), player.Box(), AnimalBoxes(animals), Character().damageTaken);
      ResolveContacts();
    }

    /**
     * checkCollisions: the projectile pass, then the contact pass on what the
     * first pass left. The invariant is kept: health stays in [0, maxLives] and
     * the run stops when it reaches zero, the best score stays at least the score.
     */
    method CheckCollisions()
      requires Valid()
      modifies this`projectiles, this`enemies, this`explosions, this`score, this`bestScore, this`health, this`gameRunning
      ensures Valid()
      ensures var p := ProjectilePass(old(projectiles), old(HitRecord()));
              var c := ContactPass(p.state.enemies, p.state.effects, old(RunLedger()), player.Box(), AnimalBoxes(animals), Character().damageTaken);
              && projectiles == p.kept
              && score == p.state.score && bestScore == p.state.bestScore
              && enemies == c.kept && explosions == c.effects && RunLedger() == c.ledger
      ensures score >= old(score) && bestScore >= old(bestScore) && health <= old(health)
    {
      StrikePhase();
      ContactPhase();
    }

    /**
     * switchCharacter: only while the game runs, swap the character and leave a
     * flash at the player's centre in the new character's projectile colour.
     */
    method SwitchCharacter()
      modifies this`currentCharacter, this`explosions
      ensures !old(gameRunning) ==> currentCharacter == old(currentCharacter) && explosions == old(explosions)
      ensures old(gameRunning) ==>
                && currentCharacter == Switched(old(currentCharacter))
                && explosions == old(explosions) + [SwitchFlash(player.x + player.width / 2.0, player.y + player.height / 2.0, Character().projectileColor)]
    {
      if !gameRunning {
        return;
      }
      currentCharacter := if currentCharacter == Adrielle then Luca else Adrielle;
      explosions := explosions + [SwitchFlash(player.x + player.width / 2.0, player.y + player.height / 2.0, Character().projectileColor)];
    }

    /** fireSupportAnimals as the key handlers run it: the volley keeps the invariant. */
    method FireVolley(rolls: seq<real>, hypot: (real, real) -> real)
      requires Valid() && |rolls| == |animals| && ValidRolls(rolls)
      modifies this`animals, this`projectiles
      ensures Valid()
      ensures var v := FireAll(old(animals), enemies, rolls, hypot);
              animals == v.animals && projectiles == old(projectiles) + v.shots
    {
      FireAllKeepsCompanions(animals, enemies, rolls, hypot);
      var fired := FireSupportAnimals(rolls, hypot);
    }

    /**
     * The Shift case of handleKeyDown: the double-tap detector of ShiftDown,
     * and the companions' volley when it says so.
     */
    method PressShift(now: real, repeat: bool, rolls: seq<real>, hypot: (real, real) -> real)
      requires Valid() && |rolls| == |animals| && ValidRolls(rolls)
      modifies this`keys, this`supportAutoFire, this`lastShiftTap, this`animals, this`projectiles
      ensures Valid()
      ensures var p := ShiftDown(old(ShiftRecord()), now, repeat);
              var v := FireAll(old(animals), enemies, rolls, hypot);
              && ShiftRecord() == p.state
              && keys == old(keys).(shift := true)
              && (p.volley ==> animals == v.animals && projectiles == old(projectiles) + v.shots)
              && (!p.volley ==> animals == old(animals) && projectiles == old(projectiles))
    {
      if !keys.shift {
        if now - lastShiftTap < DoubleShiftWindow {
          supportAutoFire := !supportAutoFire;
          lastShiftTap := 0.0;
          if supportAutoFire {
            FireVolley(rolls, hypot);
          }
        } else {
          lastShiftTap := now;
          if !repeat {
            FireVolley(rolls, hypot);
          }
        }
      }
      keys := keys.(shift := true);
    }

    /** The Space case of handleKeyDown: a volley when Shift is held and the press is not an auto-repeat. */
    method PressSpace(shiftKey: bool, repeat: bool, rolls: seq<real>, hypot: (real, real) -> real)
      requires Valid() && |rolls| == |animals| && ValidRolls(rolls)
      modifies this`keys, this`animals, this`projectiles
      ensures Valid()
      ensures var v := FireAll(old(animals), enemies, rolls, hypot);
              && keys == old(keys).(shoot := true)
              && ((shiftKey || old(keys).shift) && !repeat ==> animals == v.animals && projectiles == old(projectiles) + v.shots)
              && (!((shiftKey || old(keys).shift) && !repeat) ==> animals == old(animals) && projectiles == old(projectiles))
    {
      if (shiftKey || keys.shift) && !repeat {
        FireVolley(rolls, hypot);
      }
      keys := keys.(shoot := true);
    }

    /** The other cases of handleKeyDown: a movement key becomes held, S switches the character. */
    method PressOther(code: KeyCode)
      requires Valid() && !IsShift(code) && code != Space
      modifies this`keys, this`currentCharacter, this`explosions
      ensures Valid()
      ensures keys == PressKey(old(keys), code)
      ensures code == KeyS && old(gameRunning) ==>
                && currentCharacter == Switched(old(currentCharacter))
                && explosions == old(explosions) + [SwitchFlash(player.x + player.width / 2.0, player.y + player.height / 2.0, Character().projectileColor)]
      ensures code != KeyS || !old(gameRunning) ==> currentCharacter == old(currentCharacter) && explosions == old(explosions)
    {
      if code == KeyS {
        SwitchCharacter();
      } else {
        keys := PressKey(keys, code);
      }
    }

    /**
     * handleKeyDown. The key's own control becomes held; Shift runs the
     * double-tap detector; Shift and Shift+Space fire the companions' volley as
     * KeyDownVolley says; S switches the character.
     */
    method HandleKeyDown(ev: KeyEvent, now: real, rolls: seq<real>, hypot: (real, real) -> real)
      requires Valid() && |rolls| == |animals| && ValidRolls(rolls)
      modifies this`keys, this`supportAutoFire, this`lastShiftTap, this`animals, this`projectiles, this`currentCharacter, this`explosions
      ensures Valid()
      ensures var v := FireAll(old(animals), enemies, rolls, hypot);
              var volley := KeyDownVolley(old(keys), old(supportAutoFire), old(lastShiftTap), ev, now);
              && (volley ==> animals == v.animals && projectiles == old(projectiles) + v.shots)
              && (!volley ==> animals == old(animals) && projectiles == old(projectiles))
      ensures IsShift(ev.code) ==>
                && ShiftRecord() == ShiftDown(old(ShiftRecord()), now, ev.repeat).state
                && keys == old(keys).(shift := true)
      ensures ev.code == Space ==> keys == old(keys).(shoot := true)
      ensures !IsShift(ev.code) && ev.code != Space ==>
                && keys == PressKey(old(keys), ev.code)
                && (ev.code == KeyS && old(gameRunning) ==>
                      && currentCharacter == Switched(old(currentCharacter))
                      && explosions == old(explosions) + [SwitchFlash(player.x + player.width / 2.0, player.y + player.height / 2.0, Character().projectileColor)])
                && (ev.code != KeyS || !old(gameRunning) ==> currentCharacter == old(currentCharacter) && explosions == old(explosions))
    {
      if ev.code == ShiftLeft || ev.code == ShiftRight {
        PressShift(now, ev.repeat, rolls, hypot);
      } else if ev.code == Space {
        PressSpace(ev.shiftKey, ev.repeat, rolls, hypot);
      } else {
        PressOther(ev.code);
      }
    }

    /** handleKeyUp: the key's own control is released. */
    method HandleKeyUp(code: KeyCode)
      modifies this`keys
      ensures keys == ReleaseKey(old(keys), code)
    {
      if code == ArrowLeft || code == KeyA {
        keys := keys.(left := false);
      } else if code == ArrowRight || code == KeyD {
        keys := keys.(right := false);
      } else if code == ArrowUp || code == KeyW {
        keys := keys.(up := false);
      } else if code == ShiftLeft || code == ShiftRight {
        keys := keys.(shift := false);
      } else if code == Space {
        keys := keys.(shoot := false);
      }
    }

    /** The window's blur handler: every control is released. */
    method Blur()
      modifies this`keys
      ensures forall c :: !Held(keys, c)
    {
      keys := keys.(left := false, right := false, up := false, shoot := false);
      keys := keys.(shift := false);
    }

    /**
     * The first updates of a frame: the director ticks (and may spawn a ship),
     * then the player moves and may fire. The invariant is kept.
     */
    method MoveRunner(delta: real, roll: SpawnRoll)
      requires Valid() && delta >= 0.0 && ValidSpawnRoll(roll)
      modifies this`spawnTimer, this`spawnInterval, this`difficultyLevel, this`enemies, player, this`projectiles
      ensures Valid()
      ensures var t := DirectorTick(old(DirectorState()), delta);
              && DirectorState() == t.director
              && enemies == old(enemies) + (if t.spawned then [SpawnEnemy(old(difficultyLevel), canvasWidth, roll)] else [])
      ensures var f := PlayerStep(old(player.Snapshot()), keys, Character(), delta, canvasWidth, GroundY());
              player.Snapshot() == f.body && projectiles == old(projectiles) + OptionSeq(f.shot)
    {
      UpdateDifficulty(delta, roll);
      UpdatePlayer(delta);
    }

    /** updateAnimals, the next update of a frame, as AutoTickAll; the invariant is kept. */
    method MoveCompanions(delta: real, rolls: seq<real>, hypot: (real, real) -> real)
      requires Valid() && delta >= 0.0 && |rolls| == 2 && ValidRolls(rolls)
      modifies this`animals, this`projectiles
      ensures Valid()
      ensures var v := AutoTickAll(old(animals), player.x, player.width, GroundY(), delta, supportAutoFire, enemies, rolls, hypot);
              animals == v.animals && projectiles == old(projectiles) + v.shots
    {
      AutoTickAllKeepsCompanions(animals, player.x, player.width, GroundY(), delta, supportAutoFire, enemies, rolls, hypot);
      UpdateAnimals(delta, rolls, hypot);
    }

    /** The store updates of a frame for projectiles, then enemies; the invariant is kept. */
    method AgeShots(delta: real, sin: real -> real)
      requires Valid() && delta >= 0.0
      modifies this`projectiles, this`enemies
      ensures Valid()
      ensures projectiles == AdvanceProjectiles(old(projectiles), delta, canvasWidth, canvasHeight)
      ensures enemies == AdvanceEnemies(old(enemies), delta, canvasWidth, canvasHeight, sin)
    {
      UpdateProjectiles(delta);
      UpdateEnemies(delta, sin);
    }

    /** updateExplosions as AdvanceEffects; the invariant is kept: every effect left has started. */
    method AgeEffects(delta: real)
      requires Valid() && delta >= 0.0
      modifies this`explosions
      ensures Valid()
      ensures explosions == AdvanceEffects(old(explosions), delta)
    {
      AdvanceEffectsBounds(explosions, delta);
      UpdateExplosions(delta);
    }

    /**
     * The first three updates of a frame: the director ticks, the player moves,
     * and the companions follow the player's new position and aim at the
     * ships including any spawned this frame. The projectile store gains the
     * player's shot and then the companions' shots, in that order.
     */
    method MoveActors(delta: real, frame: Frame)
      requires Valid() && delta >= 0.0 && FrameValid(frame)
      modifies this`spawnTimer, this`spawnInterval, this`difficultyLevel, this`enemies, player, this`projectiles, this`animals
      ensures Valid()
      ensures var t := DirectorTick(old(DirectorState()), delta);
              var spawned := old(enemies) + (if t.spawned then [SpawnEnemy(old(difficultyLevel), canvasWidth, frame.spawn)] else []);
              && DirectorState() == t.director
              && enemies == spawned
              && player.Snapshot() == PlayerStep(old(player.Snapshot()), keys, Character(), delta, canvasWidth, GroundY()).body
              && animals == AutoTickAll(old(animals), player.x, player.width, GroundY(), delta, supportAutoFire, spawned,
                                        frame.companionRolls, frame.hypot).animals
      ensures var t := DirectorTick(old(DirectorState()), delta);
              var spawned := old(enemies) + (if t.spawned then [SpawnEnemy(old(difficultyLevel), canvasWidth, frame.spawn)] else []);
              projectiles == old(projectiles)
                             + OptionSeq(PlayerStep(old(player.Snapshot()), keys, Character(), delta, canvasWidth, GroundY()).shot)
                             + AutoTickAll(old(animals), player.x, player.width, GroundY(), delta, supportAutoFire, spawned,
                                           frame.companionRolls, frame.hypot).shots
    {
      MoveRunner(delta, frame.spawn);
      MoveCompanions(delta, frame.companionRolls, frame.hypot);
    }

    /**
     * The last four updates of a frame: the stores age, then collisions are
     * resolved. The score and the best score never go down and health never
     * goes up.
     */
    method AgeAndCollide(delta: real, sin: real -> real)
      requires Valid() && delta >= 0.0
      modifies this`projectiles, this`enemies, this`explosions, this`score, this`bestScore, this`health, this`gameRunning
      ensures Valid()
      ensures var p := ProjectilePass(AdvanceProjectiles(old(projectiles), delta, canvasWidth, canvasHeight),
                                      HitState(AdvanceEnemies(old(enemies), delta, canvasWidth, canvasHeight, sin),
                                               AdvanceEffects(old(explosions), delta), old(score), old(bestScore)));
              var c := ContactPass(p.state.enemies, p.state.effects, old(RunLedger()), player.Box(), AnimalBoxes(animals), Character().damageTaken);
              && projectiles == p.kept
              && score == p.state.score && bestScore == p.state.bestScore
              && enemies == c.kept && explosions == c.effects && RunLedger() == c.ledger
      ensures score >= old(score) && bestScore >= old(bestScore) && health <= old(health)
    {
      AgeShots(delta, sin);
      AgeEffects(delta);
      CheckCollisions();
    }

    /**
     * One frame of `loop`: nothing happens once the run has stopped; otherwise
     * MoveActors and then AgeAndCollide run the seven updates in their fixed
     * order (director, player, companions, projectiles, enemies, effects,
     * collisions), and their contracts give the exact new state. The invariant
     * is kept; the score and the best score never go down and health never
     * goes up. The keys, the character, the auto-fire mode and the last Shift
     * tap are outside its frame: a frame never changes them.
     */
    method Step(delta: real, frame: Frame)
      requires Valid() && delta >= 0.0 && FrameValid(frame)
      modifies this`spawnTimer, this`spawnInterval, this`difficultyLevel, player, this`animals
      modifies this`projectiles, this`enemies, this`explosions, this`score, this`bestScore, this`health, this`gameRunning
      ensures Valid()
      ensures !old(gameRunning) ==> unchanged(this) && unchanged(player)
      ensures score >= old(score) && bestScore >= old(bestScore) && health <= old(health)
    {
      if !gameRunning {
        return;
      }
      MoveActors(delta, frame);
      AgeAndCollide(delta, frame.sin);
    }
  }
}

=== FILE: geometry.dfy ===
/**
 * Axis-aligned collision shapes and the two collision predicates of the game
 * (rectsIntersect and circleRectCollision in game.js). Coordinates are reals;
 * IEEE rounding is not modelled.
 */
module Geometry {

  datatype Rect = Rect(x: real, y: real, width: real, height: real)

  datatype Circle = Circle(x: real, y: real, radius: real)

  function Max(a: real, b: real): real { if a >= b then a else b }

  function Min(a: real, b: real): real { if a <= b then a else b }

  function Abs(a: real): real { if a < 0.0 then -a else a }

  function Sq(a: real): real { a * a }

  /**
   * The distance covered at speed v in delta seconds. Every position update
   * goes through this one function, so that the solver sees the same term on
   * both sides of an equation between a method's state and its specification.
   */
  function Travel(v: real, delta: real): real { v * delta }

  lemma MulNonNeg(a: real, b: real)
    ensures a >= 0.0 && b >= 0.0 ==> a * b >= 0.0
  {
  }

  /** Math.max(lo, Math.min(v, hi)): the point of [lo, hi] nearest to v when lo <= hi. */
  function Clamp(v: real, lo: real, hi: real): real { Max(lo, Min(v, hi)) }

  /** Strict overlap on both axes: rectangles that only share an edge do not intersect. */
  predicate RectsIntersect(a: Rect, b: Rect)
  {
    a.x < b.x + b.width &&
    a.x + a.width > b.x &&
    a.y < b.y + b.height &&
    a.y + a.height > b.y
  }

  /** Closest-point test: clamp the centre into the rectangle and compare squared distances. */
  predicate CircleRectCollision(c: Circle, r: Rect)
  {
    var closestX := Clamp(c.x, r.x, r.x + r.width);
    var closestY := Clamp(c.y, r.y, r.y + r.height);
    Sq(c.x - closestX) + Sq(c.y - closestY) < Sq(c.radius)
  }

  predicate InsideOpen(r: Rect, px: real, py: real)
  {
    r.x < px < r.x + r.width && r.y < py < r.y + r.height
  }

  predicate InsideClosed(r: Rect, px: real, py: real)
  {
    r.x <= px <= r.x + r.width && r.y <= py <= r.y + r.height
  }

  /** For rectangles of positive size, RectsIntersect holds exactly when their interiors share a point. */
  lemma RectsIntersectIff(a: Rect, b: Rect)
    requires a.width > 0.0 && a.height > 0.0 && b.width > 0.0 && b.height > 0.0
    ensures RectsIntersect(a, b) <==> exists px, py :: InsideOpen(a, px, py) && InsideOpen(b, px, py)
  {
    if RectsIntersect(a, b) {
      var px := (Max(a.x, b.x) + Min(a.x + a.width, b.x + b.width)) / 2.0;
      var py := (Max(a.y, b.y) + Min(a.y + a.height, b.y + b.height)) / 2.0;
      assert InsideOpen(a, px, py) && InsideOpen(b, px, py);
    }
  }

  /** The clamped coordinate lies in [lo, hi] and is at least as close to v as any point of [lo, hi]. */
  lemma ClampIsClosest(v: real, lo: real, hi: real, q: real)
    requires lo <= q <= hi
    ensures lo <= Clamp(v, lo, hi) <= hi
    ensures Sq(v - Clamp(v, lo, hi)) <= Sq(v - q)
  {
    var c := Clamp(v, lo, hi);
    var a, b := v - c, v - q;
    if v < lo {
      assert c == lo && b <= a < 0.0;
      assert Sq(b) - Sq(a) == (a - b) * (-a - b);
      MulNonNeg(a - b, -a - b);
    } else if v > hi {
      assert c == hi && 0.0 < a <= b;
      assert Sq(b) - Sq(a) == (b - a) * (b + a);
      MulNonNeg(b - a, b + a);
    } else {
      assert c == v && a == 0.0;
    }
  }

  /**
   * The closest-point test is exact: the circle collides with a rectangle of
   * non-negative size iff some point of the closed rectangle lies strictly
   * inside the circle.
   */
  lemma CircleRectCollisionIff(c: Circle, r: Rect)
    requires r.width >= 0.0 && r.height >= 0.0
    ensures CircleRectCollision(c, r) <==>
            exists px, py :: InsideClosed(r, px, py) && Sq(c.x - px) + Sq(c.y - py) < Sq(c.radius)
  {
    var cx := Clamp(c.x, r.x, r.x + r.width);
    var cy := Clamp(c.y, r.y, r.y + r.height);
    ClampIsClosest(c.x, r.x, r.x + r.width, r.x);
    ClampIsClosest(c.y, r.y, r.y + r.height, r.y);
    if CircleRectCollision(c, r) {
      assert InsideClosed(r, cx, cy);
    }
    if exists px, py :: InsideClosed(r, px, py) && Sq(c.x - px) + Sq(c.y - py) < Sq(c.radius) {
      var px, py :| InsideClosed(r, px, py) && Sq(c.x - px) + Sq(c.y - py) < Sq(c.radius);
      ClampIsClosest(c.x, r.x, r.x + r.width, px);
      ClampIsClosest(c.y, r.y, r.y + r.height, py);
    }
  }
}

=== FILE: input.dfy ===
/**
 * The keyboard state machine of handleKeyDown / handleKeyUp and the blur
 * handler: the `keys` record of held controls, and the double-Shift detector
 * that toggles companion auto-fire. Times are milliseconds as returned by
 * performance.now(), passed in by the caller.
 */
module Input {
  import opened Entities

  /** The `keys` record: which controls are currently held. */
  datatype Keys = Keys(left: bool, right: bool, up: bool, shoot: bool, shift: bool)

  const NoKeys: Keys := Keys(false, false, false, false, false)

  /** The five controls of the `keys` record. */
  datatype Control = Left | Right | Up | Shoot | Shift

  function Held(keys: Keys, c: Control): bool
  {
    match c
    case Left => keys.left
    case Right => keys.right
    case Up => keys.up
    case Shoot => keys.shoot
    case Shift => keys.shift
  }

  /** The `event.code` values the handlers distinguish; every other code is OtherKey. */
  datatype KeyCode = ArrowLeft | KeyA | ArrowRight | KeyD | ArrowUp | KeyW
                   | ShiftLeft | ShiftRight | Space | KeyS | OtherKey

  datatype KeyEvent = KeyEvent(code: KeyCode, repeat: bool, shiftKey: bool)

  /** The control a key code drives, if any (KeyS switches character and holds nothing). */
  function ControlOf(code: KeyCode): (c: Option<Control>)
    ensures c.None? <==> code == KeyS || code == OtherKey
  {
    match code
    case ArrowLeft => Some(Left)
    case KeyA => Some(Left)
    case ArrowRight => Some(Right)
    case KeyD => Some(Right)
    case ArrowUp => Some(Up)
    case KeyW => Some(Up)
    case ShiftLeft => Some(Shift)
    case ShiftRight => Some(Shift)
    case Space => Some(Shoot)
    case KeyS => None
    case OtherKey => None
  }

  predicate IsShift(code: KeyCode)
  {
    code == ShiftLeft || code == ShiftRight
  }

  /** The flag part of handleKeyDown: the key's own control becomes held, nothing else changes. */
  function PressKey(keys: Keys, code: KeyCode): (r: Keys)
    ensures forall c :: Held(r, c) == (ControlOf(code) == Some(c) || Held(keys, c))
  {
    match code
    case ArrowLeft => keys.(left := true)
    case KeyA => keys.(left := true)
    case ArrowRight => keys.(right := true)
    case KeyD => keys.(right := true)
    case ArrowUp => keys.(up := true)
    case KeyW => keys.(up := true)
    case ShiftLeft => keys.(shift := true)
    case ShiftRight => keys.(shift := true)
    case Space => keys.(shoot := true)
    case KeyS => keys
    case OtherKey => keys
  }

  /** handleKeyUp: the key's own control is released, nothing else changes. */
  function ReleaseKey(keys: Keys, code: KeyCode): (r: Keys)
    ensures forall c :: Held(r, c) == (ControlOf(code) != Some(c) && Held(keys, c))
  {
    match code
    case ArrowLeft => keys.(left := false)
    case KeyA => keys.(left := false)
    case ArrowRight => keys.(right := false)
    case KeyD => keys.(right := false)
    case ArrowUp => keys.(up := false)
    case KeyW => keys.(up := false)
    case ShiftLeft => keys.(shift := false)
    case ShiftRight => keys.(shift := false)
    case Space => keys.(shoot := false)
    case KeyS => keys
    case OtherKey => keys
  }

  /** Pressing and then releasing a key leaves every other control as it was. */
  lemma PressReleaseRestoresOthers(keys: Keys, code: KeyCode, c: Control)
    requires ControlOf(code) != Some(c)
    ensures Held(ReleaseKey(PressKey(keys, code), code), c) == Held(keys, c)
  {
  }

  /** Two presses closer together than this, in milliseconds, toggle auto-fire. */
  const DoubleShiftWindow: real := 350.0

  /** The state the Shift handling reads and writes: keys.shift, supportAutoFire, lastShiftTap. */
  datatype ShiftState = ShiftState(held: bool, autoFire: bool, lastTap: real)

  /** The new Shift state and whether the press triggers a companion volley. */
  datatype ShiftPress = ShiftPress(state: ShiftState, volley: bool)

  /**
   * The Shift branch of handleKeyDown. A press while Shift is already held only
   * keeps it held. Otherwise a press within the window of the last recorded tap
   * toggles auto-fire, forgets the tap and fires a volley iff auto-fire is now
   * on; any other press records its time and fires a volley unless it is an
   * auto-repeat.
   */
  function ShiftDown(s: ShiftState, now: real, repeat: bool): (r: ShiftPress)
    ensures r.state.held
    ensures s.held ==> r.state == s && !r.volley
    ensures !s.held && now - s.lastTap < DoubleShiftWindow ==>
              r.state.autoFire == !s.autoFire && r.state.lastTap == 0.0 && r.volley == r.state.autoFire
    ensures !s.held && now - s.lastTap >= DoubleShiftWindow ==>
              r.state.autoFire == s.autoFire && r.state.lastTap == now && r.volley == !repeat
  {
    if s.held then ShiftPress(s, false)
    else if now - s.lastTap < DoubleShiftWindow then
      ShiftPress(ShiftState(true, !s.autoFire, 0.0), !s.autoFire)
    else
      ShiftPress(ShiftState(true, s.autoFire, now), !repeat)
  }

  /** The Shift branch of handleKeyUp. */
  function ShiftUp(s: ShiftState): ShiftState
  {
    s.(held := false)
  }

  /**
   * A double tap: starting released and with no tap in the window, a press, a
   * release and a second press within the window toggle auto-fire; the first
   * press fires a volley, and the second fires one iff auto-fire was turned on.
   */
  lemma DoubleTapToggles(s: ShiftState, t1: real, t2: real)
    requires !s.held && t1 - s.lastTap >= DoubleShiftWindow
    requires t2 - t1 < DoubleShiftWindow
    ensures var p1 := ShiftDown(s, t1, false);
            var p2 := ShiftDown(ShiftUp(p1.state), t2, false);
            && p1.volley
            && p2.state.autoFire == !s.autoFire
            && p2.state.lastTap == 0.0
            && p2.volley == !s.autoFire
  {
  }

  /** Holding Shift (auto-repeat presses) never toggles auto-fire nor fires again. */
  lemma HeldShiftIsInert(s: ShiftState, now: real, repeat: bool)
    requires s.held
    ensures ShiftDown(s, now, repeat) == ShiftPress(s, false)
  {
  }

  /**
   * Whether a key press fires the companions' volley: the Shift branch as
   * above, or Space pressed with Shift (reported by the event or held) that is
   * not an auto-repeat. An auto-repeat press fires only as the second tap of a
   * double Shift tap that turns auto-fire on.
   */
  function KeyDownVolley(keys: Keys, autoFire: bool, lastTap: real, ev: KeyEvent, now: real): (v: bool)
    ensures ev.code == Space ==> (v <==> (ev.shiftKey || keys.shift) && !ev.repeat)
    ensures !IsShift(ev.code) && ev.code != Space ==> !v
    ensures IsShift(ev.code) && keys.shift ==> !v
    ensures IsShift(ev.code) && !keys.shift && now - lastTap >= DoubleShiftWindow ==> (v <==> !ev.repeat)
    ensures v && ev.repeat ==> IsShift(ev.code) && !keys.shift && now - lastTap < DoubleShiftWindow && !autoFire
  {
    if IsShift(ev.code) then ShiftDown(ShiftState(keys.shift, autoFire, lastTap), now, ev.repeat).volley
    else if ev.code == Space then (ev.shiftKey || keys.shift) && !ev.repeat
    else false
  }
}

=== FILE: ledger.dfy ===
/**
 * The scoring and lives ledger: applyDamage (health clamped at zero, the run
 * stops when health reaches zero) and the logic part of registerBestScore.
 */
module Ledger {
  import opened Geometry

  const MaxLives: real := 3.0
  const KillReward: int := 100

  datatype Ledger = Ledger(health: real, running: bool)

  /** health in [0, maxLives], and a run with no health left is stopped. */
  predicate LedgerValid(l: Ledger)
  {
    0.0 <= l.health <= MaxLives && (l.health == 0.0 ==> !l.running)
  }

  /** applyDamage: subtract, clamp at zero, stop the run when nothing is left. */
  function Damage(l: Ledger, amount: real): (r: Ledger)
    ensures r.health == Max(0.0, l.health - amount)
    ensures !r.running <==> (!l.running || r.health <= 0.0)
    ensures LedgerValid(l) && amount >= 0.0 ==> LedgerValid(r) && r.health <= l.health
    ensures l.health == 0.0 && amount >= 0.0 ==> r.health == 0.0
  {
    var health := Max(0.0, l.health - amount);
    Ledger(health, if health <= 0.0 then false else l.running)
  }

  /** registerBestScore: the best score only moves up, to the current score. */
  function BestScore(score: int, bestScore: int): (r: int)
    ensures r >= score && r >= bestScore
    ensures r == score || r == bestScore
  {
    if score > bestScore then score else bestScore
  }

  /** The health left after n hits of the same amount. */
  function DamageN(l: Ledger, amount: real, n: nat): Ledger
    decreases n
  {
    if n == 0 then l else DamageN(Damage(l, amount), amount, n - 1)
  }

  /** n hits of a non-negative amount clamp as one hit of n times the amount: later hits at zero stay at zero. */
  lemma {:induction false} DamageNClamps(l: Ledger, amount: real, n: nat)
    requires amount >= 0.0 && l.health >= 0.0
    ensures DamageN(l, amount, n).health == Max(0.0, l.health - (n as real) * amount)
    ensures n > 0 && DamageN(l, amount, n).health > 0.0 ==> DamageN(l, amount, n).running == l.running
    ensures n > 0 && DamageN(l, amount, n).health == 0.0 ==> !DamageN(l, amount, n).running
    decreases n
  {
    if n > 0 {
      DamageNClamps(Damage(l, amount), amount, n - 1);
      assert (n as real) * amount == amount + ((n - 1) as real) * amount;
    }
  }
}

=== FILE: player.dfy ===
/**
 * The player's motion and firing in one frame (updatePlayer and
 * shootProjectile) as a function of the player's state before the frame.
 */
module PlayerPhysics {
  import opened Geometry
  import opened Entities
  import opened Input

  const PlayerWidth: real := 72.0
  const PlayerHeight: real := 120.0
  const Gravity: real := 1400.0
  /** Distance the player keeps from each side of the canvas. */
  const EdgeInset: real := 20.0
  const Friction: real := 0.82
  /** Below this horizontal speed an un-steered player stops. */
  const StopSpeed: real := 10.0
  /** Distance below the player's top edge at which its projectiles appear. */
  const MuzzleDrop: real := 30.0
  /** The narrowest canvas on which the clamp range [20, width - 92] is non-empty. */
  const MinCanvasWidth: real := PlayerWidth + 2.0 * EdgeInset

  /** The fields of `player` that updatePlayer changes. */
  datatype Body = Body(x: real, y: real, vx: real, vy: real, onGround: bool, fireCooldown: real)

  /** A player standing on the ground has no vertical speed and its feet on the ground line. */
  predicate Grounded(b: Body, groundY: real)
  {
    b.onGround ==> b.vy == 0.0 && b.y + PlayerHeight == groundY
  }

  /** What updatePlayer keeps true of the player between frames. */
  predicate BodyValid(b: Body, canvasWidth: real, groundY: real)
  {
    EdgeInset <= b.x <= canvasWidth - PlayerWidth - EdgeInset &&
    b.y + PlayerHeight <= groundY &&
    Grounded(b, groundY) &&
    Abs(b.vx) <= MaxCharacterSpeed &&
    b.fireCooldown >= 0.0
  }

  /**
   * The horizontal steering of updatePlayer. Holding one direction accelerates
   * towards it at three times the character's speed per second, capped at the
   * speed; holding both or neither applies friction and stops a slow player.
   */
  function Steer(vx: real, keys: Keys, c: Character, delta: real): (r: real)
    requires delta >= 0.0 && c.speed > 0.0
    ensures keys.left && !keys.right ==> -c.speed <= r <= Max(vx, -c.speed)
    ensures keys.right && !keys.left ==> Min(vx, c.speed) <= r <= c.speed
    ensures keys.left == keys.right ==> Abs(r) <= Abs(vx) && (r == 0.0 || Abs(r) >= StopSpeed)
    ensures Abs(r) <= Max(Abs(vx), c.speed)
    ensures keys.left != keys.right && Abs(vx) <= c.speed ==> Abs(r) <= c.speed
  {
    var acceleration := c.speed * 3.0;
    MulNonNeg(acceleration, delta);
    if keys.left && !keys.right then Max(vx - acceleration * delta, -c.speed)
    else if keys.right && !keys.left then Min(vx + acceleration * delta, c.speed)
    else
      var slowed := vx * Friction;
      if Abs(slowed) < StopSpeed then 0.0 else slowed
  }

  /**
   * After a switch from the faster character to the slower one the player can
   * move faster than the current character's speed for a while, even with one
   * direction held: the speed cap holds only for a player already within it.
   */
  lemma SteerKeepsSpeedFromBeforeSwitch()
    ensures Abs(Steer(-320.0, Keys(false, true, false, false, false), Profile(Adrielle), 0.01)) > Profile(Adrielle).speed
  {
  }

  /**
   * The motion part of updatePlayer: steer, move and clamp horizontally, jump
   * only from the ground, fall under gravity and snap to the ground line.
   */
  function Move(b: Body, keys: Keys, c: Character, delta: real, canvasWidth: real, groundY: real): (r: Body)
    requires delta >= 0.0 && c.speed > 0.0
    ensures canvasWidth >= MinCanvasWidth ==> EdgeInset <= r.x <= canvasWidth - PlayerWidth - EdgeInset
    ensures r.y + PlayerHeight <= groundY
    ensures r.fireCooldown == b.fireCooldown
    ensures r.vx == Steer(b.vx, keys, c, delta)
    ensures Grounded(b, groundY) ==> Grounded(r, groundY)
    ensures !r.onGround ==> r.vy == (if keys.up && b.onGround then c.jumpStrength else b.vy) + Gravity * delta
    ensures r.onGround ==> (r.vy == 0.0 && r.y + PlayerHeight == groundY) || (b.onGround && !keys.up)
  {
    var vx := Steer(b.vx, keys, c, delta);
    var x := Max(EdgeInset, Min(canvasWidth - PlayerWidth - EdgeInset, b.x + Travel(vx, delta)));
    var jump := keys.up && b.onGround;
    var vy := (if jump then c.jumpStrength else b.vy) + Gravity * delta;
    var onGround := if jump then false else b.onGround;
    var y := b.y + Travel(vy, delta);
    MulNonNeg(vy, delta);
    if y + PlayerHeight >= groundY then Body(x, groundY - PlayerHeight, vx, 0.0, true, b.fireCooldown)
    else Body(x, y, vx, vy, onGround, b.fireCooldown)
  }

  /** shootProjectile's projectile: from the top middle of the player, straight up. */
  function PlayerShot(b: Body, c: Character): (p: Projectile)
    ensures p.owner == ByPlayer && p.damage == 2.0 && p.vx == 0.0 && p.vy == -c.projectileSpeed
    ensures p.x == b.x + PlayerWidth / 2.0 && p.y == b.y + MuzzleDrop && p.radius == c.projectileSize
  {
    Projectile(b.x + PlayerWidth / 2.0, b.y + MuzzleDrop, c.projectileSize, 0.0, -c.projectileSpeed,
               c.projectileColor, "", ByPlayer, 2.0)
  }

  /** The player after a frame, and the projectile it fired if any. */
  datatype PlayerFrame = PlayerFrame(body: Body, shot: Option<Projectile>)

  /**
   * One call of updatePlayer. The player fires iff the shoot key is held and
   * the cooldown has run out; the shot re-arms the cooldown before this frame's
   * countdown, so the cooldown left after a shot is the character's fireCooldown
   * minus delta. The frame keeps BodyValid for any character on a wide enough canvas.
   */
  function PlayerStep(b: Body, keys: Keys, c: Character, delta: real, canvasWidth: real, groundY: real): (r: PlayerFrame)
    requires delta >= 0.0 && c.speed > 0.0
    ensures r.shot.Some? <==> keys.shoot && b.fireCooldown <= 0.0
    ensures r.shot.Some? ==> r.shot.value.owner == ByPlayer && r.shot.value.damage == 2.0
    ensures r.shot.Some? && c.fireCooldown >= 0.0 ==> r.body.fireCooldown == Max(0.0, c.fireCooldown - delta)
    ensures r.shot.None? ==> r.body.fireCooldown == (if b.fireCooldown > 0.0 then Max(0.0, b.fireCooldown - delta) else b.fireCooldown)
    ensures b.fireCooldown >= 0.0 && c.fireCooldown >= 0.0 ==> 0.0 <= r.body.fireCooldown <= Max(b.fireCooldown, c.fireCooldown)
    ensures BodyValid(b, canvasWidth, groundY) && canvasWidth >= MinCanvasWidth && c.speed <= MaxCharacterSpeed && c.fireCooldown >= 0.0 ==>
              BodyValid(r.body, canvasWidth, groundY)
  {
    var moved := Move(b, keys, c, delta, canvasWidth, groundY);
    var fires := keys.shoot && moved.fireCooldown <= 0.0;
    var armed := if fires then c.fireCooldown else moved.fireCooldown;
    var cooldown := if armed > 0.0 then Max(0.0, armed - delta) else armed;
    PlayerFrame(moved.(fireCooldown := cooldown), if fires then Some(PlayerShot(moved, c)) else None)
  }

  /** A jump needs the ground: an airborne player's vertical speed only gains gravity (or it lands). */
  lemma NoJumpInTheAir(b: Body, keys: Keys, c: Character, delta: real, canvasWidth: real, groundY: real)
    requires delta >= 0.0 && c.speed > 0.0 && !b.onGround
    ensures var r := PlayerStep(b, keys, c, delta, canvasWidth, groundY).body;
            r.onGround || r.vy == b.vy + Gravity * delta
  {
  }

  /** A player standing on the ground with the jump key held leaves the ground with the character's jump strength. */
  lemma JumpFromGround(b: Body, keys: Keys, c: Character, delta: real, canvasWidth: real, groundY: real)
    requires delta >= 0.0 && c.speed > 0.0 && b.onGround && keys.up
    ensures var r := PlayerStep(b, keys, c, delta, canvasWidth, groundY).body;
            r.onGround || r.vy == c.jumpStrength + Gravity * delta
  {
  }
}

=== FILE: stores.dfy ===
/**
 * The per-frame updates of the three entity stores (updateProjectiles,
 * updateEnemies, updateExplosions). Each update moves every element and drops
 * the ones that meet the store's expiry condition. The game scans each store
 * from its last index down and splices in place; the functions here recurse on
 * the LAST element in the same way, so a reverse scan that has handled the
 * suffix s[i+1..] has built exactly the tail of the function's result.
 */
module Stores {
  import opened Geometry
  import opened Entities

  /** Extra distance beyond the canvas that a projectile may travel before it is dropped. */
  const ProjectileMargin: real := 40.0
  /** Distance below the canvas at which an enemy is dropped. */
  const EnemyMargin: real := 120.0
  /** Inset of the side walls that enemies bounce off. */
  const WallInset: real := 10.0

  // ---------------------------------------------------------------- projectiles

  function MoveProjectile(p: Projectile, delta: real): Projectile
  {
    p.(x := p.x + Travel(p.vx, delta), y := p.y + Travel(p.vy, delta))
  }

  /** The removal test of updateProjectiles: strictly beyond the margin on some side. */
  predicate OutOfBounds(p: Projectile, canvasWidth: real, canvasHeight: real)
  {
    p.y + p.radius < -ProjectileMargin ||
    p.y - p.radius > canvasHeight + ProjectileMargin ||
    p.x + p.radius < -ProjectileMargin ||
    p.x - p.radius > canvasWidth + ProjectileMargin
  }

  /** The store after updateProjectiles: every projectile moved, the out-of-bounds ones dropped. */
  function AdvanceProjectiles(ps: seq<Projectile>, delta: real, canvasWidth: real, canvasHeight: real): (r: seq<Projectile>)
    ensures |r| <= |ps|
    decreases |ps|
  {
    if ps == [] then []
    else
      var q := MoveProjectile(ps[|ps| - 1], delta);
      var rest := AdvanceProjectiles(ps[..|ps| - 1], delta, canvasWidth, canvasHeight);
      rest + (if OutOfBounds(q, canvasWidth, canvasHeight) then [] else [q])
  }

  /**
   * updateProjectiles removes exactly the projectiles that end beyond the
   * margin: every survivor is in bounds and is a moved projectile of the old
   * store, and every moved projectile that is in bounds survives.
   */
  lemma {:induction false} AdvanceProjectilesFilters(ps: seq<Projectile>, delta: real, w: real, h: real)
    ensures var r := AdvanceProjectiles(ps, delta, w, h);
            && (forall q :: q in r ==> !OutOfBounds(q, w, h))
            && (forall q :: q in r ==> exists k :: 0 <= k < |ps| && q == MoveProjectile(ps[k], delta))
            && (forall k :: 0 <= k < |ps| && !OutOfBounds(MoveProjectile(ps[k], delta), w, h) ==>
                  MoveProjectile(ps[k], delta) in r)
    decreases |ps|
  {
    if ps != [] {
      var n := |ps| - 1;
      var rest := AdvanceProjectiles(ps[..n], delta, w, h);
      var q := MoveProjectile(ps[n], delta);
      var kept := if OutOfBounds(q, w, h) then [] else [q];
      assert AdvanceProjectiles(ps, delta, w, h) == rest + kept;
      AdvanceProjectilesFilters(ps[..n], delta, w, h);
      forall p | p in rest + kept
        ensures exists k :: 0 <= k < |ps| && p == MoveProjectile(ps[k], delta)
      {
        if p in rest {
          var k :| 0 <= k < n && p == MoveProjectile(ps[..n][k], delta);
          assert ps[..n][k] == ps[k];
        } else {
          assert p == MoveProjectile(ps[n], delta);
        }
      }
      forall k | 0 <= k < |ps| && !OutOfBounds(MoveProjectile(ps[k], delta), w, h)
        ensures MoveProjectile(ps[k], delta) in rest + kept
      {
        if k < n {
          assert ps[..n][k] == ps[k];
        }
      }
    }
  }

  /** Removal keeps the survivors in their original relative order: the update distributes over concatenation. */
  lemma {:induction false} AdvanceProjectilesConcat(a: seq<Projectile>, b: seq<Projectile>, delta: real, w: real, h: real)
    ensures AdvanceProjectiles(a + b, delta, w, h) == AdvanceProjectiles(a, delta, w, h) + AdvanceProjectiles(b, delta, w, h)
    decreases |b|
  {
    if b == [] {
      assert a + b == a;
    } else {
      var b' := b[..|b| - 1];
      assert (a + b)[..|a + b| - 1] == a + b';
      AdvanceProjectilesConcat(a, b', delta, w, h);
    }
  }

  /** One step of a reverse scan: the prefix ending at index i is the shorter prefix plus the fate of element i. */
  lemma AdvanceProjectilesStep(ps: seq<Projectile>, i: nat, delta: real, w: real, h: real)
    requires i < |ps|
    ensures var q := MoveProjectile(ps[i], delta);
            AdvanceProjectiles(ps[..i + 1], delta, w, h) ==
            AdvanceProjectiles(ps[..i], delta, w, h) + (if OutOfBounds(q, w, h) then [] else [q])
  {
    assert ps[..i + 1][..i] == ps[..i];
  }

  /** The four sides of the field. */
  datatype Side = Top | Bottom | LeftSide | RightSide

  /** The projectile's edge lies exactly on the margin beyond the given side. */
  predicate OnMargin(p: Projectile, w: real, h: real, side: Side)
  {
    match side
    case Top => p.y + p.radius == -ProjectileMargin
    case Bottom => p.y - p.radius == h + ProjectileMargin
    case LeftSide => p.x + p.radius == -ProjectileMargin
    case RightSide => p.x - p.radius == w + ProjectileMargin
  }

  /** The projectile moved outwards, past the given side, by d. */
  function Pushed(p: Projectile, side: Side, d: real): (q: Projectile)
    ensures q.radius == p.radius
  {
    match side
    case Top => p.(y := p.y - d)
    case Bottom => p.(y := p.y + d)
    case LeftSide => p.(x := p.x - d)
    case RightSide => p.(x := p.x + d)
  }

  /**
   * The comparisons of updateProjectiles are strict on every side: a
   * projectile within the margin on all sides whose edge lies exactly on the
   * margin of one side is kept, and pushed any distance further out on that
   * side it is dropped.
   */
  lemma ProjectileMarginIsInclusive(p: Projectile, w: real, h: real, side: Side, beyond: real)
    requires -ProjectileMargin <= p.y + p.radius && p.y - p.radius <= h + ProjectileMargin
    requires -ProjectileMargin <= p.x + p.radius && p.x - p.radius <= w + ProjectileMargin
    requires OnMargin(p, w, h, side)
    requires beyond > 0.0
    ensures !OutOfBounds(p, w, h)
    ensures OutOfBounds(Pushed(p, side, beyond), w, h)
  {
  }

  // ---------------------------------------------------------------- enemies

  /** The sideways speed of a ship before the wall test: a zigzag ship's follows its advanced timer. */
  function SteeredVx(e: Enemy, delta: real, sin: real -> real): real
  {
    if e.kind == Zigzag then sin(e.zigzagTimer + delta * 3.0) * 140.0 else e.vx
  }

  /**
   * One enemy's motion in updateEnemies. `sin` stands for Math.sin, which the
   * model treats as an opaque function.
   */
  function MoveEnemy(e: Enemy, delta: real, canvasWidth: real, sin: real -> real): (r: Enemy)
    ensures r.width == e.width && r.height == e.height && r.kind == e.kind && r.health == e.health
    ensures r.y == e.y + Travel(e.vy, delta) && r.vy == e.vy
    ensures var v := SteeredVx(e, delta, sin);
            var x := e.x + Travel(v, delta);
            && r.x == x
            && r.vx == (if x < WallInset || x + e.width > canvasWidth - WallInset then -v else v)
    ensures r.zigzagTimer == (if e.kind == Zigzag then e.zigzagTimer + delta * 3.0 else e.zigzagTimer)
    ensures r.hitFlash == Max(0.0, e.hitFlash - delta)
    ensures delta >= 0.0 ==> 0.0 <= r.hitFlash <= Max(0.0, e.hitFlash)
    ensures e.kind == Straight ==> Abs(r.vx) == Abs(e.vx)
  {
    var steered :=
      if e.kind == Zigzag then
        var t := e.zigzagTimer + delta * 3.0;
        e.(zigzagTimer := t, vx := sin(t) * 140.0)
      else e;
    var moved := steered.(x := steered.x + Travel(steered.vx, delta),
                          y := steered.y + Travel(steered.vy, delta),
                          hitFlash := Max(0.0, steered.hitFlash - delta));
    if moved.x < WallInset || moved.x + moved.width > canvasWidth - WallInset then moved.(vx := -moved.vx)
    else moved
  }

  /**
   * The stored sideways speed after the wall test: a ship that ends beyond a
   * wall while heading into it stores a speed pointing away from it, and a
   * ship between the walls stores its steered speed. Whether the ship then
   * turns is another matter: see StoredVxIsOverwritten and StraightShipStaysPut.
   */
  lemma WallBounceTurnsBack(e: Enemy, delta: real, canvasWidth: real, sin: real -> real)
    ensures var v := SteeredVx(e, delta, sin);
            var r := MoveEnemy(e, delta, canvasWidth, sin);
            && (r.x < WallInset && v < 0.0 ==> r.vx > 0.0)
            && (r.x + r.width > canvasWidth - WallInset && v > 0.0 ==> r.vx < 0.0)
            && (WallInset <= r.x && r.x + r.width <= canvasWidth - WallInset ==> r.vx == v)
  {
  }

  /**
   * A zigzag ship's next move ignores its stored sideways speed, since the
   * speed is recomputed from the timer first; so the stored speed the wall
   * test flips never steers it.
   */
  lemma StoredVxIsOverwritten(e: Enemy, v: real, delta: real, canvasWidth: real, sin: real -> real)
    requires e.kind == Zigzag
    ensures MoveEnemy(e.(vx := v), delta, canvasWidth, sin) == MoveEnemy(e, delta, canvasWidth, sin)
  {
  }

  /**
   * A zigzag ship beyond the left wall whose steered speed points left keeps
   * moving left in the next frame, whatever the wall test stored.
   */
  lemma ZigzagCrossesLeftWall()
    ensures var e := Enemy(5.0, 0.0, 70.0, 90.0, -80.0, 70.0, Zigzag, 0.0, 2.0, 0.0);
            var sin := (t: real) => -1.0;
            var r := MoveEnemy(e, 0.1, 400.0, sin);
            && r.x < WallInset && r.vx > 0.0
            && MoveEnemy(r, 0.1, 400.0, sin).x < r.x
  {
  }

  /** A straight ship with no sideways speed never moves sideways, walls or not. */
  lemma StraightShipStaysPut(e: Enemy, delta: real, canvasWidth: real, sin: real -> real)
    requires e.kind == Straight && e.vx == 0.0
    ensures var r := MoveEnemy(e, delta, canvasWidth, sin);
            r.x == e.x && r.vx == 0.0
  {
  }

  predicate BelowField(e: Enemy, canvasHeight: real)
  {
    e.y > canvasHeight + EnemyMargin
  }

  /** The store after updateEnemies: every enemy moved, those below the field dropped. */
  function AdvanceEnemies(es: seq<Enemy>, delta: real, canvasWidth: real, canvasHeight: real, sin: real -> real): (r: seq<Enemy>)
    ensures |r| <= |es|
    decreases |es|
  {
    if es == [] then []
    else
      var e := MoveEnemy(es[|es| - 1], delta, canvasWidth, sin);
      var rest := AdvanceEnemies(es[..|es| - 1], delta, canvasWidth, canvasHeight, sin);
      rest + (if BelowField(e, canvasHeight) then [] else [e])
  }

  /** updateEnemies removes exactly the moved enemies that are more than the margin below the field. */
  lemma {:induction false} AdvanceEnemiesFilters(es: seq<Enemy>, delta: real, w: real, h: real, sin: real -> real)
    ensures var r := AdvanceEnemies(es, delta, w, h, sin);
            && (forall e :: e in r ==> !BelowField(e, h))
            && (forall e :: e in r ==> exists k :: 0 <= k < |es| && e == MoveEnemy(es[k], delta, w, sin))
            && (forall k :: 0 <= k < |es| && !BelowField(MoveEnemy(es[k], delta, w, sin), h) ==>
                  MoveEnemy(es[k], delta, w, sin) in r)
    decreases |es|
  {
    if es != [] {
      var n := |es| - 1;
      var rest := AdvanceEnemies(es[..n], delta, w, h, sin);
      var moved := MoveEnemy(es[n], delta, w, sin);
      var kept := if BelowField(moved, h) then [] else [moved];
      assert AdvanceEnemies(es, delta, w, h, sin) == rest + kept;
      AdvanceEnemiesFilters(es[..n], delta, w, h, sin);
      forall e | e in rest + kept
        ensures exists k :: 0 <= k < |es| && e == MoveEnemy(es[k], delta, w, sin)
      {
        if e in rest {
          var k :| 0 <= k < n && e == MoveEnemy(es[..n][k], delta, w, sin);
          assert es[..n][k] == es[k];
        } else {
          assert e == MoveEnemy(es[n], delta, w, sin);
        }
      }
      forall k | 0 <= k < |es| && !BelowField(MoveEnemy(es[k], delta, w, sin), h)
        ensures MoveEnemy(es[k], delta, w, sin) in rest + kept
      {
        if k < n {
          assert es[..n][k] == es[k];
        }
      }
    }
  }

  lemma AdvanceEnemiesStep(es: seq<Enemy>, i: nat, delta: real, w: real, h: real, sin: real -> real)
    requires i < |es|
    ensures var e := MoveEnemy(es[i], delta, w, sin);
            AdvanceEnemies(es[..i + 1], delta, w, h, sin) ==
            AdvanceEnemies(es[..i], delta, w, h, sin) + (if BelowField(e, h) then [] else [e])
  {
    assert es[..i + 1][..i] == es[..i];
  }

  lemma {:induction false} AdvanceEnemiesConcat(a: seq<Enemy>, b: seq<Enemy>, delta: real, w: real, h: real, sin: real -> real)
    ensures AdvanceEnemies(a + b, delta, w, h, sin) == AdvanceEnemies(a, delta, w, h, sin) + AdvanceEnemies(b, delta, w, h, sin)
    decreases |b|
  {
    if b == [] {
      assert a + b == a;
    } else {
      var b' := b[..|b| - 1];
      assert (a + b)[..|a + b| - 1] == a + b';
      AdvanceEnemiesConcat(a, b', delta, w, h, sin);
    }
  }

  // ---------------------------------------------------------------- effects

  /** One effect's step in updateExplosions: life advances, radius and alpha follow the progress. */
  function AdvanceEffect(fx: Effect, delta: real): (r: Effect)
    ensures r.life == fx.life + delta && r.duration == fx.duration && r.maxRadius == fx.maxRadius
    ensures r.x == fx.x && r.y == fx.y && r.color == fx.color
    ensures r.alpha == Max(0.0, 0.8 - r.life / r.duration) && r.alpha >= 0.0
    ensures r.radius == r.maxRadius * (r.life / r.duration)
  {
    var life := fx.life + delta;
    var progress := life / fx.duration;
    fx.(life := life, radius := fx.maxRadius * progress, alpha := Max(0.0, 0.8 - progress))
  }

  /**
   * Effects fade and grow: with more time elapsed, an effect's alpha is no
   * larger and, for a non-negative maximum radius, its radius no smaller.
   */
  lemma EffectFades(fx: Effect, d1: real, d2: real)
    requires d1 <= d2
    ensures AdvanceEffect(fx, d2).alpha <= AdvanceEffect(fx, d1).alpha
    ensures fx.maxRadius >= 0.0 ==> AdvanceEffect(fx, d1).radius <= AdvanceEffect(fx, d2).radius
  {
    var p1 := (fx.life + d1) / fx.duration;
    var p2 := (fx.life + d2) / fx.duration;
    DivMonotone(fx.life + d1, fx.life + d2, fx.duration);
    MulNonNeg(fx.maxRadius, p2 - p1);
  }

  lemma DivMonotone(a: real, b: real, d: real)
    requires a <= b && d > 0.0
    ensures a / d <= b / d
  {
    MulNonNeg(a / d - b / d, d);
    assert (a / d - b / d) * d == a - b;
  }

  predicate Expired(fx: Effect)
  {
    fx.life >= fx.duration
  }

  lemma DivBounds(life: real, duration: real)
    requires duration > 0.0
    ensures 0.0 <= life ==> 0.0 <= life / duration
    ensures life < duration ==> life / duration < 1.0
  {
    var q := life / duration;
    assert q * duration == life;
    MulNonNeg(q, duration);
    MulNonNeg(q - 1.0, duration);
    assert (q - 1.0) * duration == q * duration - duration;
  }

  /** The store after updateExplosions: every effect advanced, the expired ones dropped. */
  function AdvanceEffects(fxs: seq<Effect>, delta: real): (r: seq<Effect>)
    ensures |r| <= |fxs|
    decreases |fxs|
  {
    if fxs == [] then []
    else
      var fx := AdvanceEffect(fxs[|fxs| - 1], delta);
      var rest := AdvanceEffects(fxs[..|fxs| - 1], delta);
      rest + (if Expired(fx) then [] else [fx])
  }

  /** updateExplosions removes exactly the advanced effects that have reached their duration. */
  lemma {:induction false} AdvanceEffectsFilters(fxs: seq<Effect>, delta: real)
    ensures var r := AdvanceEffects(fxs, delta);
            && (forall fx :: fx in r ==> !Expired(fx))
            && (forall fx :: fx in r ==> exists k :: 0 <= k < |fxs| && fx == AdvanceEffect(fxs[k], delta))
            && (forall k :: 0 <= k < |fxs| && !Expired(AdvanceEffect(fxs[k], delta)) ==> AdvanceEffect(fxs[k], delta) in r)
    decreases |fxs|
  {
    if fxs != [] {
      var n := |fxs| - 1;
      var rest := AdvanceEffects(fxs[..n], delta);
      var advanced := AdvanceEffect(fxs[n], delta);
      var kept := if Expired(advanced) then [] else [advanced];
      assert AdvanceEffects(fxs, delta) == rest + kept;
      AdvanceEffectsFilters(fxs[..n], delta);
      forall fx | fx in rest + kept
        ensures exists k :: 0 <= k < |fxs| && fx == AdvanceEffect(fxs[k], delta)
      {
        if fx in rest {
          var k :| 0 <= k < n && fx == AdvanceEffect(fxs[..n][k], delta);
          assert fxs[..n][k] == fxs[k];
        } else {
          assert fx == AdvanceEffect(fxs[n], delta);
        }
      }
      forall k | 0 <= k < |fxs| && !Expired(AdvanceEffect(fxs[k], delta))
        ensures AdvanceEffect(fxs[k], delta) in rest + kept
      {
        if k < n {
          assert fxs[..n][k] == fxs[k];
        }
      }
    }
  }

  /**
   * With a non-negative delta, effects that have started stay started, and
   * every survivor's alpha is at most 0.8 and its radius at most its maximum.
   */
  lemma {:induction false} AdvanceEffectsBounds(fxs: seq<Effect>, delta: real)
    requires delta >= 0.0 && AllStarted(fxs)
    ensures var r := AdvanceEffects(fxs, delta);
            && AllStarted(r)
            && (forall k :: 0 <= k < |r| ==> r[k].alpha <= 0.8 && r[k].radius <= r[k].maxRadius)
    decreases |fxs|
  {
    if fxs != [] {
      var n := |fxs| - 1;
      var rest := AdvanceEffects(fxs[..n], delta);
      var fx := AdvanceEffect(fxs[n], delta);
      assert AdvanceEffects(fxs, delta) == rest + (if Expired(fx) then [] else [fx]);
      assert AllStarted(fxs[..n]) by {
        forall k | 0 <= k < n
          ensures Started(fxs[..n][k])
        {
          assert fxs[..n][k] == fxs[k];
        }
      }
      AdvanceEffectsBounds(fxs[..n], delta);
      var kept := if Expired(fx) then [] else [fx];
      AdvanceEffectBounds(fxs[n], delta);
      forall k | 0 <= k < |rest + kept|
        ensures Started((rest + kept)[k])
        ensures (rest + kept)[k].alpha <= 0.8 && (rest + kept)[k].radius <= (rest + kept)[k].maxRadius
      {
        if k < |rest| {
          assert (rest + kept)[k] == rest[k];
        } else {
          assert (rest + kept)[k] == fx;
        }
      }
    }
  }

  /** One effect: a started effect stays started, its alpha stays at most 0.8, and until it expires its radius stays at most its maximum. */
  lemma AdvanceEffectBounds(fx: Effect, delta: real)
    requires delta >= 0.0 && Started(fx)
    ensures var r := AdvanceEffect(fx, delta);
            Started(r) && r.alpha <= 0.8 && (!Expired(r) ==> r.radius <= r.maxRadius)
  {
    var r := AdvanceEffect(fx, delta);
    DivBounds(r.life, r.duration);
    assert r.radius == r.maxRadius * (r.life / r.duration);
    MulAtMost(r.maxRadius, r.life / r.duration);
  }

  lemma MulAtMost(m: real, p: real)
    ensures 0.0 <= m && p <= 1.0 ==> m * p <= m
  {
    if 0.0 <= m && p <= 1.0 {
      assert m - m * p == m * (1.0 - p);
      MulNonNeg(m, 1.0 - p);
    }
  }

  lemma AdvanceEffectsStep(fxs: seq<Effect>, i: nat, delta: real)
    requires i < |fxs|
    ensures var fx := AdvanceEffect(fxs[i], delta);
            AdvanceEffects(fxs[..i + 1], delta) == AdvanceEffects(fxs[..i], delta) + (if Expired(fx) then [] else [fx])
  {
    assert fxs[..i + 1][..i] == fxs[..i];
  }

  lemma {:induction false} AdvanceEffectsConcat(a: seq<Effect>, b: seq<Effect>, delta: real)
    ensures AdvanceEffects(a + b, delta) == AdvanceEffects(a, delta) + AdvanceEffects(b, delta)
    decreases |b|
  {
    if b == [] {
      assert a + b == a;
    } else {
      var b' := b[..|b| - 1];
      assert (a + b)[..|a + b| - 1] == a + b';
      AdvanceEffectsConcat(a, b', delta);
    }
  }

  /**
   * One step of a reverse scan that splices in place: replacing element i of
   * `cur` by `kept` leaves the prefix alone, and if the whole result is the
   * result for the first i + 1 elements followed by the suffix already
   * scanned, it is also the result for the first i elements followed by the
   * new suffix from i.
   */
  lemma SpliceStep<T>(whole: seq<T>, done: seq<T>, before: seq<T>, kept: seq<T>, cur: seq<T>, i: nat)
    requires i < |cur|
    requires whole == done + cur[i + 1..]
    requires done == before + kept
    ensures (cur[..i] + kept + cur[i + 1..])[..i] == cur[..i]
    ensures whole == before + (cur[..i] + kept + cur[i + 1..])[i..]
  {
    var spliced := cur[..i] + kept + cur[i + 1..];
    assert spliced == cur[..i] + (kept + cur[i + 1..]);
    assert spliced[i..] == kept + cur[i + 1..];
    assert whole == before + (kept + cur[i + 1..]);
  }
}
